=== FILE: README.md ===
# Boarding-house back office, modelled in Dafny

This project models the service layer of a back office for a boarding house. The original is a NestJS application on MikroORM. It covers:

- **Rooms** and **tenants**: CRUD operations with a searchable list.
- **Contracts**: a lifecycle of ACTIVE, TERMINATED and EXPIRED, with renew, terminate and a periodic expiry sweep.
- **Finance transactions**: income and expense entries, optionally linked to a room and a tenant.
- **Maintenance tickets**: a status that any update may set to any value, with no transition guard.
- **Back-office users**: hashed passwords, role and status filters, and a controller that converts path ids with JavaScript's unary `+`.
- **Settings**: a singleton row created with fixed defaults on first read.
- **Phone validator**: accepts Vietnamese mobile numbers.

How the model represents the system:

- **Tables.** Each database table is an immutable `map` from primary key to record.
- **Results.** Each service operation returns `Step(state, result)`: the table after the call and either `Ok(value)` or `Err(error)`.
  - `NotFound(kind)` stands for NestJS's `NotFoundException`.
  - `BadRequest` stands for `BadRequestException`.
  - `Failure(message)` stands for a plain JavaScript `Error`.
  - `Rejected` stands for a write the database refuses on flush.
- **Errors leave the table alone.** Every error path is stated to return the table unchanged.
- **Row order.** The services never fix the order in which the database returns rows. List queries therefore take an `order` parameter that lists every key exactly once (`Tables.IsListing`).
- **Pagination.** The three pagination schemes of the list endpoints live in one module, `Paging`:
  - offset plus count;
  - fetch one row extra;
  - `ceil(total / limit)` pages.

  The model proves how the three schemes relate to each other.
- **Environment as parameters.** The wall clock, the uuid generator and bcrypt are parameters:
  - `today`: the current date;
  - `freshId`: a fresh key, with a precondition that it is not in use;
  - `hash`: the password hash function, passed to each call separately, since bcrypt draws a fresh salt on every call.

Modules:

| file | module | system part |
|---|---|---|
| wrappers.dfy | Wrappers | `Option`, `Result`, error kinds, `Step` |
| text.dfy | Text | JavaScript truthiness, `LIKE '%q%'` search, digit strings |
| tables.dfy | Tables | tables, row order, `WHERE` selection, lookup by key |
| paging.dfy | Paging | the three pagination schemes |
| contracts.dfy | Contracts | contracts service and its lifecycle |
| transactions.dfy | Transactions | finance transactions service |
| maintenance.dfy | Maintenance | maintenance service and its filter object |
| users.dfy | Users | users service |
| users_controller.dfy | UsersController | users controller: `+id` and the status guard |
| settings.dfy | Settings | settings singleton |
| rooms.dfy | Rooms | rooms service |
| tenants.dfy | Tenants | tenants service |
| phone.dfy | Phone | `IsVietnamesePhoneNumber` validator |

## Model

| member | source | states |
|---|---|---|
| Tables.Select | src/modules/rooms/rooms.service.ts:26-29 | the result is a subsequence of the input rows, their order kept, and holds exactly the rows the WHERE clause accepts |
| Tables.SelectCounts | src/modules/rooms/rooms.service.ts:26-29 | each accepted row occurs in the selection exactly as often as in the input, and no other row occurs |
| Tables.Query | src/modules/rooms/rooms.service.ts:26-31 | every record a query returns is stored and satisfies the WHERE clause |
| Tables.QueryCountsMatches | src/modules/rooms/rooms.service.ts:26-31 | a query returns as many rows as there are stored keys whose record the WHERE clause accepts, which is the `total` the list endpoints report |
| Tables.QueryIsComplete | src/modules/rooms/rooms.service.ts:26-31 | a stored record is returned by a query exactly when it satisfies the WHERE clause (both directions) |
| Tables.ListingLength | src/modules/contracts/contracts.service.ts:29 | a row order visiting every key once is as long as the table, so an unfiltered count equals the table size |
| Tables.Lookup | src/modules/rooms/rooms.service.ts:43-49 | `findOne` by key succeeds exactly when the key is stored and returns that record; otherwise it gives NotFound of the given kind |
| Text.ContainsIffOccurs | src/modules/rooms/rooms.service.ts:15-20 | the left-to-right substring scan used for `LIKE '%q%'` succeeds exactly when `q` occurs at some index |
| Paging.Offset | src/modules/rooms/rooms.service.ts:12 | `(page - 1) * limit` is never negative for page and limit of at least 1 |
| Paging.Window | src/modules/rooms/rooms.service.ts:26-29 | `OFFSET o LIMIT l` returns `min(l, n - o)` rows (none past the end), and they are the rows from position `o` on |
| Paging.PageByCount | src/modules/contracts/contracts.service.ts:24-38 | the page is exactly the window of at most `limit` matching rows starting at `(page - 1) * limit`; `hasMore` holds exactly when rows remain beyond offset plus limit, and then the page is full |
| Paging.PageByLookahead | src/modules/finances/transactions.service.ts:14-21 | of the `limit + 1` rows fetched, `hasMore` is whether the extra row arrived; the page is the fetched rows without it, never more than `limit` |
| Paging.LookaheadAgreesWithCount | src/modules/finances/transactions.service.ts:14-21 | fetching one extra row gives the same page and the same `hasMore` as offset-plus-count pagination |
| Paging.TotalPages | src/modules/users/users.service.ts:47 | `ceil(total / limit)`: the smallest page count whose pages hold every row; it is zero exactly when there are no rows |
| Paging.CeilBounds | src/modules/maintenance/maintenance.service.ts:52 | the integer form `(total + limit - 1) / limit` is the ceiling: enough pages, and one fewer would not be enough |
| Paging.PageNonEmptyIffWithinTotalPages | src/modules/maintenance/maintenance.service.ts:41-52 | a page has rows exactly when its number is at most `totalPages` |
| Paging.PageWithTotals | src/modules/users/users.service.ts:17-49 | page and limit default to 1 and 10; `total` counts every match; the items are the requested window; items are present exactly when the page is within `totalPages` |
| Contracts.FindAll | src/modules/contracts/contracts.service.ts:14-39 | page and limit default to 1 and 10; the page is exactly the stored contracts from offset `(page - 1) * limit`, at most `limit` of them; `hasMore` is `offset + returned < total`, which holds exactly when contracts remain beyond the page |
| Contracts.FindOne | src/modules/contracts/contracts.service.ts:41-51 | a contract is found exactly when its id is stored; otherwise NotFound |
| Contracts.Create | src/modules/contracts/contracts.service.ts:53-79 | as written: an unknown room is NotFound first and an unknown tenant second; a request whose room and tenant both exist is refused by the database because the contract has no key; no request stores anything |
| Contracts.CreateWithKey | src/modules/contracts/contracts.service.ts:53-79 | corrected: it fails exactly as the as-written create does when a lookup fails, and succeeds exactly where that create is refused; the new contract copies the request, is ACTIVE whatever status was sent, and is stored under a fresh key |
| Contracts.ValidRequestIsRefusedAsWritten | src/modules/contracts/contracts.service.ts:66-77 | there is a request with an existing room and tenant that the as-written create does not store, while the keyed create stores it |
| Contracts.Update | src/modules/contracts/contracts.service.ts:81-86 | a missing contract is NotFound; otherwise each supplied property of the request type (dates, deposit, rent, terms and `status`) overwrites the stored one, each absent one is kept, and ids and termination data are kept |
| Contracts.UpdateKeepingStatus | src/modules/contracts/contracts.service.ts:81-86 | the corrected update: the stored status is never changed by an update, so it is a lifecycle step |
| Contracts.UpdateCanReopenTerminated | src/modules/contracts/contracts.service.ts:81-86 | there is a TERMINATED contract and an update request that makes it ACTIVE again |
| Contracts.NamedRooms | src/migrations/Migration20250329063224.ts:24 | the room ids that some stored contract refers to, exactly: the rooms a delete is refused for |
| Contracts.NamedTenants | src/migrations/Migration20250329063224.ts:23 | the tenant ids that some stored contract refers to, exactly: the tenants a delete is refused for |
| Contracts.Remove | src/modules/contracts/contracts.service.ts:88-91 | removal succeeds exactly for a stored id, deletes exactly that key, and keeps every other contract |
| Contracts.RemoveUndoesCreate | src/modules/contracts/contracts.service.ts:53-91 | a contract just created with a key is found under that key, and deleting it restores the table |
| Contracts.Renew | src/modules/contracts/contracts.service.ts:93-106 | NotFound for a missing id; a non-ACTIVE contract is refused with "Only active contracts can be renewed" and nothing changes; otherwise only the end date and, when a non-zero rent is given, the rent change, and the contract stays ACTIVE |
| Contracts.Terminate | src/modules/contracts/contracts.service.ts:108-120 | NotFound for a missing id; a non-ACTIVE contract is refused and nothing changes; otherwise it becomes TERMINATED with the given reason and date, and nothing else changes |
| Contracts.CheckExpiredContracts | src/modules/contracts/contracts.service.ts:122-134 | exactly the ACTIVE contracts ending before today become EXPIRED, every other contract is untouched, and afterwards none is overdue |
| Contracts.SweepIsIdempotent | src/modules/contracts/contracts.service.ts:122-134 | a second sweep on the same day changes nothing |
| Contracts.Apply | src/modules/contracts/contracts.service.ts:53-134 | each command (keyed create, corrected update, remove, renew, terminate, sweep) moves statuses only out of ACTIVE, records every key it hands out, and never brings back a key handed out before |
| Contracts.LifecycleHoldsOverRuns | src/modules/contracts/contracts.service.ts:81-134 | over any sequence of commands, removals included, a contract present at the start and at the end only ever left ACTIVE, and a key once handed out never reappears after removal |
| Contracts.FinalContractsAreUntouched | src/modules/contracts/contracts.service.ts:93-134 | renew, terminate and the sweep leave a TERMINATED or EXPIRED contract entirely unchanged |
| Transactions.FindAll | src/modules/finances/transactions.service.ts:13-31 | `limit + 1` rows from the offset are fetched; `hasMore` is whether more than `limit` arrived; the page is the fetched rows with the extra row dropped; each row is stored and has the requested type; `hasMore` also equals "rows remain beyond the page" |
| Transactions.NoTypeSelectsEverything | src/modules/finances/transactions.service.ts:14 | without a type the query is unfiltered: every row, in order |
| Transactions.FindOne | src/modules/finances/transactions.service.ts:33-43 | found exactly when stored; otherwise NotFound |
| Transactions.Create | src/modules/finances/transactions.service.ts:45-66 | as written: a truthy room id that is not stored is refused first, then a truthy tenant id that is not stored; once both links resolve, a request without a description is Rejected by the database and nothing changes; it succeeds exactly when both links resolve and a description is given, and then it equals the intended create |
| Transactions.CreateOptionalDescription | src/modules/finances/transactions.service.ts:45-66 | the intended create: the same link checks in the same order; a request without links always succeeds; the stored transaction copies the request's fields, its description included when one is given, and links a room or tenant exactly when a truthy, existing key was given |
| Transactions.UnlinkedWithoutDescriptionIsRefusedAsWritten | src/modules/finances/transactions.service.ts:58-64 | there is a request without links or description that the as-written create refuses and the intended create stores |
| Transactions.Remove | src/modules/finances/transactions.service.ts:68-71 | deletes exactly the stored transaction with that id; a missing one is NotFound and nothing changes |
| Transactions.RemoveUndoesCreate | src/modules/finances/transactions.service.ts:45-71 | a transaction just created by the intended create is found under its key, and deleting it restores the table |
| Maintenance.BuiltFilterMeansConjunction | src/modules/maintenance/maintenance.service.ts:23-39 | the filter object built one `if` at a time selects exactly the tickets that meet every given condition |
| Maintenance.BothDatesFormClosedRange | src/modules/maintenance/maintenance.service.ts:31-39 | with both dates the end bound is merged into the start-date condition rather than replacing it, giving the closed range |
| Maintenance.FindAll | src/modules/maintenance/maintenance.service.ts:12-54 | page and limit default to 1 and 10; the items are exactly the matching tickets from offset `(page - 1) * limit`, at most `limit`; each meets the query; `total` is the match count; `totalPages` is its ceiling over `limit`; a page has items exactly when it is within `totalPages` |
| Maintenance.Create | src/modules/maintenance/maintenance.service.ts:56-70 | the seven request fields are copied, the status is PENDING and there are no notes |
| Maintenance.UpdateStatus | src/modules/maintenance/maintenance.service.ts:72-85 | a missing ticket is the plain error "Maintenance record not found" and nothing changes; otherwise the status is set, the notes are replaced only by non-empty notes, and nothing else changes |
| Maintenance.FindOne | src/modules/maintenance/maintenance.service.ts:87-93 | found exactly when stored; otherwise the plain error "Maintenance record not found" |
| Maintenance.FindOneAfterCreate | src/modules/maintenance/maintenance.service.ts:56-93 | a ticket just created is found under its key, PENDING |
| Maintenance.EveryStatusReachable | src/modules/maintenance/maintenance.service.ts:72-85 | there is no transition guard: any status can be set on any ticket, and its notes are kept when none are sent |
| Users.FindAll | src/modules/users/users.service.ts:17-49 | page and limit default to 1 and 10; the items are exactly the matching users from offset `(page - 1) * limit`, at most `limit`; each matches the search, role and status; `total` and `totalPages` are the count and its ceiling over `limit` |
| Users.SearchFindsSubstrings | src/modules/users/users.service.ts:21-27 | a non-empty search finds a user exactly when the term occurs in its name, email or phone |
| Users.FindOne | src/modules/users/users.service.ts:51-57 | found exactly when stored; otherwise NotFound |
| Users.Create | src/modules/users/users.service.ts:59-67 | the stored user carries the hash of the password, not the password, and a missing status defaults to active |
| Users.Update | src/modules/users/users.service.ts:69-93 | name, email, phone, role and status are overwritten only by supplied truthy values; a supplied password is stored hashed; a missing user is NotFound and nothing changes |
| Users.EmptyUpdateIsIdentity | src/modules/users/users.service.ts:69-93 | for every request whose fields are all absent or falsy, the update returns the stored user and changes nothing |
| Users.UpdateIsIdempotent | src/modules/users/users.service.ts:69-93 | sending the same update twice ends exactly as sending only the second, whatever salt each call's hash uses; without a password it is the same as sending it once |
| Users.Remove | src/modules/users/users.service.ts:95-99 | deletes exactly that user and answers "User deleted successfully"; a missing user is NotFound and nothing changes |
| Users.RemoveUndoesCreate | src/modules/users/users.service.ts:51-99 | a user just created is found under its id, and deleting it restores the table |
| Users.UpdateStatus | src/modules/users/users.service.ts:101-106 | only the status of that user changes; a missing user is NotFound |
| Users.UpdateStatusIsStatusOnlyUpdate | src/modules/users/users.service.ts:69-106 | a status change is the same as an update that supplies only the status |
| UsersController.DigitChar | src/modules/users/users.controller.ts:73 | the digit character written for a value below ten reads back as that value |
| UsersController.Decimal | src/modules/users/users.controller.ts:73 | a number's decimal spelling is a non-empty digit string |
| UsersController.ToNumber | src/modules/users/users.controller.ts:73 | `+id` yields a number exactly for digit strings, and 0 for the empty string |
| UsersController.ToNumberOfDecimal | src/modules/users/users.controller.ts:73 | `+` of the decimal spelling of `n` is `n` |
| UsersController.LeadingZeroIgnored | src/modules/users/users.controller.ts:73 | a leading zero in the path does not change the id |
| UsersController.FindById | src/modules/users/users.service.ts:51-57 | a `NaN` id finds no user |
| UsersController.FindOne | src/modules/users/users.controller.ts:72-74 | a user is found exactly when the path is a digit string whose value is a stored id, and it is that user; otherwise NotFound |
| UsersController.Update | src/modules/users/users.controller.ts:111-113 | the update reaches a user exactly when the path denotes a stored id; otherwise NotFound and nothing changes; for a digit path it is the service's update of the user with that numeric id, so only that user changes and keeps its id |
| UsersController.Remove | src/modules/users/users.controller.ts:126-128 | for a digit path it is the service's delete of the user with that numeric id: exactly that key goes and every other user is kept unchanged; otherwise NotFound and nothing changes |
| UsersController.ParseStatus | src/modules/users/users.controller.ts:158-160 | a status passes the guard exactly when it is present and is "active" or "inactive" |
| UsersController.UpdateStatus | src/modules/users/users.controller.ts:157-162 | a missing or unknown status is a BadRequest "Invalid status value" before any lookup, and nothing changes; a valid one sets exactly that user's status |
| UsersController.PathOfIdFindsUser | src/modules/users/users.controller.ts:72-74 | requesting the decimal spelling of a stored id finds that user |
| Settings.Defaults | src/modules/settings/settings.service.ts:21-39 | an empty building, Vietnamese preferences (vi, VND, Asia/Ho_Chi_Minh, DD/MM/YYYY, notifications on) and the default income and expense categories |
| Settings.GetSettings | src/modules/settings/settings.service.ts:13-19 | the first stored row is returned and nothing is written; with no row, the defaults are written and returned |
| Settings.GetSettingsIsIdempotent | src/modules/settings/settings.service.ts:13-39 | a second read finds the row the first wrote, so at most one row is ever created |
| Settings.UpdateFirst | src/modules/settings/settings.service.ts:41-75 | with a stored row, the change applies to the first row only and every other row is kept; with no row, the changed defaults become the only row |
| Settings.UpdateBuilding | src/modules/settings/settings.service.ts:41-51 | exactly the building group is replaced; id, preferences, categories and other rows are kept |
| Settings.UpdatePreferences | src/modules/settings/settings.service.ts:53-65 | exactly the preference group is replaced; everything else is kept |
| Settings.UpdateCategories | src/modules/settings/settings.service.ts:67-75 | both category lists are replaced whole; everything else is kept |
| Settings.UpdateOnEmptyStartsFromDefaults | src/modules/settings/settings.service.ts:41-65 | an update on an empty table leaves the other groups at their defaults |
| Settings.BuildingAndPreferencesCommute | src/modules/settings/settings.service.ts:41-65 | building and preference updates commute |
| Settings.CategoriesCommute | src/modules/settings/settings.service.ts:41-75 | a categories update commutes with the building update and with the preference update |
| Rooms.FindAll | src/modules/rooms/rooms.service.ts:11-41 | the page is exactly the matching rooms from offset `(page - 1) * limit`, at most `limit`; each matches the search and status; `hasMore` is `offset + returned < total`, which equals "rooms remain beyond the page" |
| Rooms.FindOne | src/modules/rooms/rooms.service.ts:43-49 | found exactly when stored; otherwise NotFound |
| Rooms.Create | src/modules/rooms/rooms.service.ts:51-55 | the room holds exactly the request's properties under the fresh key |
| Rooms.Assign | src/modules/rooms/rooms.service.ts:59 | each supplied property of the request type overwrites the stored one, and each absent one is kept |
| Rooms.Update | src/modules/rooms/rooms.service.ts:57-62 | a missing room is NotFound and nothing changes; otherwise only that room changes, by the merge |
| Rooms.UpdateIsIdempotent | src/modules/rooms/rooms.service.ts:57-62 | sending the same update twice is the same as sending it once |
| Rooms.Remove | src/modules/rooms/rooms.service.ts:64-67 | a missing room is NotFound; a room some contract refers to is Rejected by the contract's foreign key; in both cases nothing changes; otherwise exactly that room is deleted and every other room is kept |
| Rooms.RemoveUndoesCreate | src/modules/rooms/rooms.service.ts:43-67 | a room just created is found under its key; deleting it restores the table unless a contract refers to the key, and then the delete is Rejected |
| Rooms.UpdateStatus | src/modules/rooms/rooms.service.ts:69-74 | only the status of that room changes |
| Rooms.UpdateStatusIsStatusOnlyUpdate | src/modules/rooms/rooms.service.ts:57-74 | a status change is the same as an update that supplies only the status |
| Tenants.FindAll | src/modules/tenants/tenants.service.ts:11-37 | the page is exactly the matching tenants from offset `(page - 1) * limit`, at most `limit`; each matches the search; `hasMore` holds exactly when tenants remain beyond the page |
| Tenants.NoSearchMatchesEveryone | src/modules/tenants/tenants.service.ts:13-20 | a missing or empty search term filters nothing out |
| Tenants.FindOne | src/modules/tenants/tenants.service.ts:39-45 | found exactly when stored; otherwise NotFound |
| Tenants.Create | src/modules/tenants/tenants.service.ts:47-54 | the request's properties under the fresh key, always ACTIVE |
| Tenants.Assign | src/modules/tenants/tenants.service.ts:58 | each supplied property of the request type overwrites the stored one, each absent one is kept, and the status is untouched |
| Tenants.Update | src/modules/tenants/tenants.service.ts:56-61 | a missing tenant is NotFound and nothing changes; otherwise only that tenant changes, by the merge |
| Tenants.UpdateIsIdempotent | src/modules/tenants/tenants.service.ts:56-61 | sending the same update twice is the same as sending it once |
| Tenants.UpdateStatus | src/modules/tenants/tenants.service.ts:63-68 | a missing tenant is NotFound; otherwise only the status changes, to whatever string the request carries, since neither the route nor the column checks it |
| Tenants.StatusRoundTrip | src/modules/tenants/tenants.service.ts:63-68 | setting any status and then the previous one restores the table; in particular deactivating and reactivating an active tenant does |
| Tenants.Remove | src/modules/tenants/tenants.service.ts:70-73 | a missing tenant is NotFound; a tenant some contract refers to is Rejected by the contract's foreign key; in both cases nothing changes; otherwise exactly that tenant is deleted and every other tenant is kept |
| Tenants.RemoveUndoesCreate | src/modules/tenants/tenants.service.ts:39-73 | a tenant just created is found under its key; deleting it restores the table unless a contract refers to the key, and then the delete is Rejected |
| Phone.MatchIsPositionwise | src/common/validators/phone.validator.ts:14 | an anchored pattern without repetition matches exactly the strings of its length whose every character is in its class |
| Phone.Validate | src/common/validators/phone.validator.ts:11-15 | a non-string is rejected; a string is accepted exactly when it has ten digits, starts with 0 and has 3-9 second |
| Phone.ValidateByScan | src/common/validators/phone.validator.ts:11-15 | a single left-to-right scan gives the same verdict as the pattern |
| Phone.Examples | src/common/validators/phone.validator.ts:14 | 0912345678 is accepted; 0212345678, a nine-digit number and +84912345678 are rejected |

## Left out

- Contracts.FindAll: the `search` parameter is not modelled. It filters on `tenantId` and `roomId`, but the contract entity exposes these only as relations, not as scalar properties, so the query's meaning depends on the ORM.
- Contracts.Update: the model's patch leaves out `tenantId` and `roomId`. These are relations on the entity, and re-pointing them through `assign` is ORM behaviour.
- Text.SearchMatches: reads `LIKE '%q%'` as plain substring containment. The `%` and `_` wildcards inside a user's term, and the database's collation (case sensitivity), are not modelled.
- The HTTP layer is not modelled: routing, guards, JWT authentication, Swagger metadata and the `class-validator` DTO decorators. The phone validator is modelled on its own; no modelled DTO applies it.
- Query-string coercion is not modelled. List endpoints receive page and limit as numbers of at least 1 (`Paging.ValidRequest`). Zero, negative or non-numeric values are outside the model.
- UsersController.ToNumber: models `+id` only for strings of ASCII digits, where the empty string gives 0; every other string is `NaN`. Whitespace, signs, decimals, exponents and hex forms are not modelled.
- The wall clock, uuid generation and bcrypt are parameters (`today`, `freshId`, `hash`). Their behaviour is not modelled.
- Users.Create: `hash` is one function for the call; bcrypt's random salt is represented only by the caller's freedom to pass a different function to each call, and the cost factor 10 is not modelled.
- Users.Update: as for Users.Create, a supplied password is hashed by the call's own `hash`; two calls with the same password are not promised the same stored hash.
- Stored timestamps: every entity carries `createdAt` and `updatedAt`, set from the clock on insert, and `updatedAt` is rewritten on every flush that changes the row. They are not modelled, so "nothing else changes" and "everything else is kept" refer to the modelled fields.
- Tenants.UpdateStatus: a body without `status`, or with a non-string value, is not modelled; the route passes such a value on unchecked as well.
- Contracts.Update: the patch is limited to the fields of the create request type. The controller types the body as `Partial<CreateContractDto>`, which no validation pipe can check, so `em.assign` copies any key a client sends; a body carrying `terminationReason`, `terminationDate` or `id` would also change those, and the model does not cover it.
- Rooms.Assign: the patch is limited to the fields of the create request type. The body is an unvalidated `Partial<CreateRoomDto>` (rooms.controller.ts line 43), so `Object.assign` would also copy `id`, `amenities` or any other key a client sends; the model does not cover such bodies.
- Tenants.Assign: the patch is limited to the fields of the create request type. The body is an unvalidated `Partial<CreateTenantDto>` (tenants.controller.ts line 42), so a body carrying `status` or `id` would change those too; the model keeps the status untouched.
- UsersController.FindById: a path that is not a digit string gives `NaN`, which the service passes to the database. PostgreSQL rejects `NaN` for the integer `id` column with a server error before the service's NotFound is reached; the model returns NotFound. The `id` column is a `serial`, a 32-bit integer, so a digit path above 2147483647 (such as `99999999999`) is likewise rejected with an "integer out of range" server error, where the model returns NotFound. The same holds for the update, delete and status routes, listed next.
- UsersController.FindOne: NaN and digit paths above 2147483647 are server errors, as under UsersController.FindById; the model returns NotFound.
- UsersController.Update: NaN and digit paths above 2147483647 are server errors, as under UsersController.FindById; the model returns NotFound.
- UsersController.Remove: NaN and digit paths above 2147483647 are server errors, as under UsersController.FindById; the model returns NotFound.
- UsersController.UpdateStatus: with a valid status, NaN and digit paths above 2147483647 are server errors, as under UsersController.FindById; the model returns NotFound.
- Contracts.LifecycleHoldsOverRuns: keys are assumed never to be reused after removal, as a fresh uuid per contract gives. The `Ledger` records every key handed out and the keyed create refuses a used one.
- Rooms.Remove: the tenant's `room_id` and the transaction's `room_id` foreign keys are `on delete set null`, so deleting a room also clears those links in the tenant and transaction tables; the model deletes from the room table only.
- Tenants.Remove: the transaction's `tenant_id` foreign key is `on delete set null`, so deleting a tenant also clears that link in the transaction table; the model deletes from the tenant table only.
- The unique constraint on a user's email is enforced by the database, not by the service, so it is not modelled.
- Transactions.Transaction: only the `income` and `expense` types are modelled. The transaction-type enum file is not part of this model.
- Tenants.Tenant: the tenant's `room` relation is not modelled, because no service operation in the model reads or writes it.
- Room images and videos, added by a migration, are not modelled. Neither are the other migrations, the MikroORM configuration, `room-type.service`, or the older copies under `src/settings` and `src/maintenance`, which the application module does not use. The application module (src/app.module.ts lines 30-34) also leaves out the maintenance and settings modules under `src/modules`, so their services are modelled as written but are not reachable over HTTP.
- Settings.UpdateBuilding, Settings.UpdatePreferences and Settings.UpdateCategories take complete groups. A request that omits a field would store `undefined`, and that is not modelled.
- JavaScript numbers are modelled as unbounded integers. Floating-point amounts, rents and deposits are not modelled.
- Concurrent requests and the ORM's identity map and unit of work are not modelled. Each operation is atomic on the table it changes.

## Findings

| source | as written | input that shows it | evidently intended | confidence | as-written member | corrected member |
|---|---|---|---|---|---|---|
| src/modules/contracts/contracts.service.ts:66-77 | `create` builds the contract without an `id`: the entity declares `id` with no initial value and does not extend the base entity that draws a uuid, `uuidv4` is imported at line 8 but never called, and the `id` column is NOT NULL without a default | any request whose room and tenant both exist: the flush is refused and no contract is stored | the contract gets a fresh uuid, as the maintenance service assigns one in its `create` | medium, not executed | Contracts.ValidRequestIsRefusedAsWritten | Contracts.CreateWithKey |
| src/modules/contracts/contracts.service.ts:81-86 | `update` applies `em.assign(contract, dto)` with a `Partial<CreateContractDto>`, and that DTO has a `status` property, so the request body's status is copied onto the contract | a TERMINATED contract updated with body `{ "status": "active" }` becomes ACTIVE again, without going through `renew` | status moves only through renew (which requires ACTIVE), terminate and the expiry sweep, so TERMINATED and EXPIRED are final | medium, not executed | Contracts.UpdateCanReopenTerminated | Contracts.UpdateKeepingStatus |
| src/modules/finances/transactions.service.ts:58-64 | `create` spreads the request into the entity, whose `description` is declared without `nullable: true` and whose column is `varchar(255) not null`, while the request type marks `description` optional | a body `{ type: "income", amount: 100, category: "rent", date: "2025-01-01" }` with no room or tenant: the flush is refused and nothing is stored | a transaction without a description is stored with none, as the request type allows | medium, not executed | Transactions.UnlinkedWithoutDescriptionIsRefusedAsWritten | Transactions.CreateOptionalDescription |

=== FILE: contracts.dfy ===
/** The contracts service: a rental agreement binding a tenant to a room for
    a date range, and its lifecycle

        ACTIVE --terminate--> TERMINATED
        ACTIVE --checkExpiredContracts (endDate < today)--> EXPIRED

    `renew` keeps a contract ACTIVE and moves its end date. Only ACTIVE
    contracts may be renewed or terminated; the refusal is a plain `Error`.
    Dates are integer timestamps; `today` is a parameter instead of the
    wall clock.
 */
module Contracts {
  import opened Wrappers
  import opened Tables
  import opened Paging

  datatype ContractStatus = Active | Terminated | Expired

  datatype Contract = Contract(
    id: string,
    tenantId: string,
    roomId: string,
    startDate: int,
    endDate: int,
    deposit: int,
    monthlyRent: int,
    terms: seq<string>,
    status: ContractStatus,
    terminationReason: Option<string>,
    terminationDate: Option<int>)

  type ContractTable = map<string, Contract>

  /** The body of a create request. Its optional `status` is accepted and
      never used. */
  datatype NewContract = NewContract(
    tenantId: string,
    roomId: string,
    startDate: int,
    endDate: int,
    deposit: int,
    monthlyRent: int,
    terms: seq<string>,
    status: Option<ContractStatus>)

  /** The body of an update request: the properties of a partial create
      request that the ORM's `assign` copies onto the stored contract. */
  datatype ContractPatch = ContractPatch(
    startDate: Option<int>,
    endDate: Option<int>,
    deposit: Option<int>,
    monthlyRent: Option<int>,
    terms: Option<seq<string>>,
    status: Option<ContractStatus>)

  const RenewRefused := "Only active contracts can be renewed"
  const TerminateRefused := "Only active contracts can be terminated"

  /** Only an active contract ever changes status. */
  predicate MayFollow(before: ContractStatus, after: ContractStatus) {
    before == after || before == Active
  }

  /** Every contract present before and after a change moved along the
      lifecycle. */
  predicate LifecycleStep(t: ContractTable, t': ContractTable) {
    forall k :: k in t && k in t' ==> MayFollow(t[k].status, t'[k].status)
  }

  /** An active contract whose end date lies before `today`. */
  predicate Overdue(c: Contract, today: int) {
    c.status == Active && c.endDate < today
  }

  // ---------------------------------------------------------------------
  // Queries

  /** GET /contracts: offset-plus-count pagination over the whole table,
      in the database's row order. */
  function FindAll(t: ContractTable, order: seq<string>, page: Option<int>, limit: Option<int>): (r: Listing<Contract>)
    requires IsListing(t, order)
    requires ValidRequest(page.GetOr(DefaultPage), limit.GetOr(DefaultLimit))
    ensures r.page == page.GetOr(DefaultPage) && r.limit == limit.GetOr(DefaultLimit)
    ensures |r.data| <= r.limit
    ensures forall c :: c in r.data ==> c in t.Values
    ensures var (p, l) := (page.GetOr(DefaultPage), limit.GetOr(DefaultLimit));
      && r.data == Window(Rows(t, order), Offset(p, l), l)
      && (r.hasMore <==> Offset(p, l) + |r.data| < |t|)
      && (r.hasMore <==> Offset(p, l) + l < |t|)
  {
    ListingLength(t, order);
    PageByCount(Rows(t, order), page.GetOr(DefaultPage), limit.GetOr(DefaultLimit))
  }

  /** GET /contracts/:id. */
  function FindOne(t: ContractTable, id: string): (r: Result<Contract>)
    ensures r.Ok? <==> id in t
    ensures r.Ok? ==> r.value == t[id]
    ensures r.Err? ==> r.error == NotFound(ContractKind)
  {
    Lookup(t, id, ContractKind)
  }

  // ---------------------------------------------------------------------
  // Commands

  /** POST /contracts, as written. The room is looked up first, then the
      tenant. The contract is then built without a primary key: `Contract`
      declares `id` with no initial value and does not extend the base
      entity that draws one, and `create` never calls the imported uuid
      generator. The `id` column is NOT NULL without a default, so the flush
      is refused and nothing is stored, even for a valid request. */
  function Create(t: ContractTable, roomIds: set<string>, tenantIds: set<string>, dto: NewContract): (r: Step<ContractTable, Contract>)
    ensures r.state == t && r.result.Err?
    ensures dto.roomId !in roomIds ==> r.result.error == NotFound(RoomKind)
    ensures dto.roomId in roomIds && dto.tenantId !in tenantIds ==> r.result.error == NotFound(TenantKind)
    ensures r.result.error == Rejected <==> dto.roomId in roomIds && dto.tenantId in tenantIds
  {
    if dto.roomId !in roomIds then Step(t, Err(NotFound(RoomKind)))
    else if dto.tenantId !in tenantIds then Step(t, Err(NotFound(TenantKind)))
    else Step(t, Err(Rejected))
  }

  /** POST /contracts as evidently intended: the same two lookups, then the
      contract is stored under a fresh uuid `freshId`, as the maintenance
      service does. The new contract is always ACTIVE whatever status the
      request carries. */
  function CreateWithKey(t: ContractTable, roomIds: set<string>, tenantIds: set<string>, dto: NewContract, freshId: string): (r: Step<ContractTable, Contract>)
    requires freshId !in t
    ensures r.result.Err? ==> r == Create(t, roomIds, tenantIds, dto)
    ensures r.result.Ok? <==> Create(t, roomIds, tenantIds, dto).result == Err(Rejected)
    ensures r.result.Ok? ==>
      var c := r.result.value;
      && c.status == Active
      && c.id == freshId && c.roomId == dto.roomId && c.tenantId == dto.tenantId
      && c.startDate == dto.startDate && c.endDate == dto.endDate
      && c.deposit == dto.deposit && c.monthlyRent == dto.monthlyRent && c.terms == dto.terms
      && c.terminationReason.None? && c.terminationDate.None?
      && r.state == t[freshId := c]
  {
    if dto.roomId !in roomIds then Step(t, Err(NotFound(RoomKind)))
    else if dto.tenantId !in tenantIds then Step(t, Err(NotFound(TenantKind)))
    else
      var c := Contract(freshId, dto.tenantId, dto.roomId, dto.startDate, dto.endDate,
                        dto.deposit, dto.monthlyRent, dto.terms, Active, None, None);
      Step(t[freshId := c], Ok(c))
  }

  /** A request naming an existing room and tenant is refused as written
      and stored once the contract is given a key. */
  lemma ValidRequestIsRefusedAsWritten()
    ensures exists t: ContractTable, roomIds, tenantIds, dto: NewContract, freshId ::
      && freshId !in t
      && dto.roomId in roomIds && dto.tenantId in tenantIds
      && Create(t, roomIds, tenantIds, dto).state == t
      && Create(t, roomIds, tenantIds, dto).result == Err(Rejected)
      && freshId in CreateWithKey(t, roomIds, tenantIds, dto, freshId).state
  {
    var t: ContractTable := map[];
    var dto := NewContract("t1", "r1", 0, 10, 500, 100, [], None);
    assert "c1" in CreateWithKey(t, {"r1"}, {"t1"}, dto, "c1").state;
  }

  /** The stored contract after the ORM's `assign` of a partial request:
      each supplied property is overwritten, the rest kept. */
  function Assign(c: Contract, patch: ContractPatch): Contract {
    c.(startDate := patch.startDate.GetOr(c.startDate),
       endDate := patch.endDate.GetOr(c.endDate),
       deposit := patch.deposit.GetOr(c.deposit),
       monthlyRent := patch.monthlyRent.GetOr(c.monthlyRent),
       terms := patch.terms.GetOr(c.terms),
       status := patch.status.GetOr(c.status))
  }

  /** PUT-like update of a contract, as written: `status` is among the
      properties a request may overwrite. */
  function Update(t: ContractTable, id: string, patch: ContractPatch): (r: Step<ContractTable, Contract>)
    ensures id !in t ==> r == Step(t, Err(NotFound(ContractKind)))
    ensures id in t ==> r.result.Ok?
    ensures id in t && r.result.Ok? ==>
      var (c, c') := (t[id], r.result.value);
      && r.state == t[id := c']
      && c'.id == c.id && c'.tenantId == c.tenantId && c'.roomId == c.roomId
      && c'.terminationReason == c.terminationReason && c'.terminationDate == c.terminationDate
      && (patch.status.Some? ==> c'.status == patch.status.value)
      && (patch.status.None? ==> c'.status == c.status)
      && (patch.endDate.Some? ==> c'.endDate == patch.endDate.value)
      && (patch.endDate.None? ==> c'.endDate == c.endDate)
      && (patch.monthlyRent.Some? ==> c'.monthlyRent == patch.monthlyRent.value)
      && (patch.monthlyRent.None? ==> c'.monthlyRent == c.monthlyRent)
      && (patch.startDate.Some? ==> c'.startDate == patch.startDate.value)
      && (patch.startDate.None? ==> c'.startDate == c.startDate)
      && (patch.deposit.Some? ==> c'.deposit == patch.deposit.value)
      && (patch.deposit.None? ==> c'.deposit == c.deposit)
      && (patch.terms.Some? ==> c'.terms == patch.terms.value)
      && (patch.terms.None? ==> c'.terms == c.terms)
  {
    match FindOne(t, id)
    case Err(e) => Step(t, Err(e))
    case Ok(c) =>
      var c' := Assign(c, patch);
      Step(t[id := c'], Ok(c'))
  }

  /** The update as the lifecycle intends it: a request's `status` is
      ignored, so only renew, terminate and the expiry sweep move a
      contract between states. */
  function UpdateKeepingStatus(t: ContractTable, id: string, patch: ContractPatch): (r: Step<ContractTable, Contract>)
    ensures id !in t ==> r == Step(t, Err(NotFound(ContractKind)))
    ensures id in t ==> r.result.Ok? && r.state == t[id := r.result.value] && r.result.value.status == t[id].status
    ensures LifecycleStep(t, r.state)
  {
    Update(t, id, patch.(status := None))
  }

  /** The room ids the stored contracts refer to: the rooms whose delete the
      contract's foreign key refuses. */
  function NamedRooms(t: ContractTable): (r: set<string>)
    ensures forall id :: id in t ==> t[id].roomId in r
    ensures forall x :: x in r ==> exists id :: id in t && t[id].roomId == x
  {
    set id | id in t :: t[id].roomId
  }

  /** The tenant ids the stored contracts refer to. */
  function NamedTenants(t: ContractTable): (r: set<string>)
    ensures forall id :: id in t ==> t[id].tenantId in r
    ensures forall x :: x in r ==> exists id :: id in t && t[id].tenantId == x
  {
    set id | id in t :: t[id].tenantId
  }

  /** DELETE /contracts/:id. */
  function Remove(t: ContractTable, id: string): (r: Step<ContractTable, ()>)
    ensures r.result.Ok? <==> id in t
    ensures r.result.Err? ==> r == Step(t, Err(NotFound(ContractKind)))
    ensures r.result.Ok? ==> r.state.Keys == t.Keys - {id}
    ensures forall k :: k in r.state ==> k in t && r.state[k] == t[k]
  {
    match FindOne(t, id)
    case Err(e) => Step(t, Err(e))
    case Ok(_) => Step(t - {id}, Ok(()))
  }

  /** Deleting a contract just created restores the table, and until then
      it is found under its key. */
  lemma RemoveUndoesCreate(t: ContractTable, roomIds: set<string>, tenantIds: set<string>, dto: NewContract, freshId: string)
    requires freshId !in t
    ensures var c := CreateWithKey(t, roomIds, tenantIds, dto, freshId);
      c.result.Ok? ==> FindOne(c.state, freshId) == c.result && Remove(c.state, freshId).state == t
  {
  }

  /** POST /contracts/:id/renew. The end date moves to `newEndDate`; the
      rent changes only when a non-zero new rent is supplied (an absent
      or zero rent is falsy and ignored). */
  function Renew(t: ContractTable, id: string, newEndDate: int, newMonthlyRent: Option<int>): (r: Step<ContractTable, Contract>)
    ensures id !in t ==> r == Step(t, Err(NotFound(ContractKind)))
    ensures id in t && t[id].status != Active ==> r == Step(t, Err(Failure(RenewRefused)))
    ensures r.result.Ok? <==> id in t && t[id].status == Active
    ensures r.result.Ok? ==>
      var (c, c') := (t[id], r.result.value);
      && r.state == t[id := c']
      && c'.status == Active
      && c'.endDate == newEndDate
      && (newMonthlyRent.Some? && newMonthlyRent.value != 0 ==> c'.monthlyRent == newMonthlyRent.value)
      && (newMonthlyRent.None? || newMonthlyRent.value == 0 ==> c'.monthlyRent == c.monthlyRent)
      && c' == c.(endDate := c'.endDate, monthlyRent := c'.monthlyRent)
  {
    match FindOne(t, id)
    case Err(e) => Step(t, Err(e))
    case Ok(c) =>
      if c.status != Active then Step(t, Err(Failure(RenewRefused)))
      else
        var rent := if newMonthlyRent.Some? && newMonthlyRent.value != 0 then newMonthlyRent.value else c.monthlyRent;
        var c' := c.(endDate := newEndDate, monthlyRent := rent);
        Step(t[id := c'], Ok(c'))
  }

  /** POST /contracts/:id/terminate. */
  function Terminate(t: ContractTable, id: string, reason: string, terminationDate: int): (r: Step<ContractTable, Contract>)
    ensures id !in t ==> r == Step(t, Err(NotFound(ContractKind)))
    ensures id in t && t[id].status != Active ==> r == Step(t, Err(Failure(TerminateRefused)))
    ensures r.result.Ok? <==> id in t && t[id].status == Active
    ensures r.result.Ok? ==>
      var (c, c') := (t[id], r.result.value);
      && r.state == t[id := c']
      && c'.status == Terminated
      && c'.terminationReason == Some(reason)
      && c'.terminationDate == Some(terminationDate)
      && c' == c.(status := Terminated, terminationReason := c'.terminationReason, terminationDate := c'.terminationDate)
  {
    match FindOne(t, id)
    case Err(e) => Step(t, Err(e))
    case Ok(c) =>
      if c.status != Active then Step(t, Err(Failure(TerminateRefused)))
      else
        var c' := c.(status := Terminated, terminationReason := Some(reason), terminationDate := Some(terminationDate));
        Step(t[id := c'], Ok(c'))
  }

  /** The periodic sweep: every overdue active contract becomes EXPIRED. */
  function CheckExpiredContracts(t: ContractTable, today: int): (t': ContractTable)
    ensures t'.Keys == t.Keys
    ensures forall k :: k in t && Overdue(t[k], today) ==> t'[k] == t[k].(status := Expired)
    ensures forall k :: k in t && !Overdue(t[k], today) ==> t'[k] == t[k]
    ensures forall k :: k in t' ==> !Overdue(t'[k], today)
  {
    map k | k in t :: if Overdue(t[k], today) then t[k].(status := Expired) else t[k]
  }

  // ---------------------------------------------------------------------
  // Properties

  /** The sweep is idempotent: a second run on the same day changes
      nothing. */
  lemma SweepIsIdempotent(t: ContractTable, today: int)
    ensures CheckExpiredContracts(CheckExpiredContracts(t, today), today) == CheckExpiredContracts(t, today)
  {
    var once := CheckExpiredContracts(t, today);
    var twice := CheckExpiredContracts(once, today);
    assert forall k :: k in once ==> twice[k] == once[k];
  }

  /** The update as written can reopen a terminated contract: the request
      body's `status` is copied onto the entity. */
  lemma UpdateCanReopenTerminated()
    ensures exists t: ContractTable, id, patch ::
      id in t && t[id].status == Terminated && Update(t, id, patch).state[id].status == Active
  {
    var c := Contract("c1", "t1", "r1", 0, 10, 0, 100, [], Terminated, Some("moved out"), Some(5));
    var t := map["c1" := c];
    var patch := ContractPatch(None, None, None, None, None, Some(Active));
    assert Update(t, "c1", patch).state["c1"].status == Active;
  }

  /** A change of the contracts table by one command. */
  datatype Command =
    | CreateCmd(roomIds: set<string>, tenantIds: set<string>, dto: NewContract, freshId: string)
    | UpdateCmd(id: string, patch: ContractPatch)
    | RemoveCmd(id: string)
    | RenewCmd(id: string, newEndDate: int, newMonthlyRent: Option<int>)
    | TerminateCmd(id: string, reason: string, terminationDate: int)
    | SweepCmd(today: int)

  /** The table together with every key ever handed out. A uuid is drawn
      afresh for each contract, so a key once used (even by a contract
      since removed) is never handed out again. */
  datatype Ledger = Ledger(table: ContractTable, used: set<string>)

  predicate Tracked(l: Ledger) {
    l.table.Keys <= l.used
  }

  function Apply(l: Ledger, cmd: Command): (l': Ledger)
    ensures l.used <= l'.used
    ensures Tracked(l) ==> Tracked(l')
    ensures forall k :: k in l'.table && k !in l.table ==> k !in l.used
    ensures LifecycleStep(l.table, l'.table)
  {
    match cmd
    case CreateCmd(roomIds, tenantIds, dto, freshId) =>
      if freshId in l.used || freshId in l.table then l
      else Ledger(CreateWithKey(l.table, roomIds, tenantIds, dto, freshId).state, l.used + {freshId})
    case UpdateCmd(id, patch) => l.(table := UpdateKeepingStatus(l.table, id, patch).state)
    case RemoveCmd(id) => l.(table := Remove(l.table, id).state)
    case RenewCmd(id, end, rent) => l.(table := Renew(l.table, id, end, rent).state)
    case TerminateCmd(id, reason, date) => l.(table := Terminate(l.table, id, reason, date).state)
    case SweepCmd(today) => l.(table := CheckExpiredContracts(l.table, today))
  }

  function Run(l: Ledger, cmds: seq<Command>): Ledger
    decreases |cmds|
  {
    if cmds == [] then l else Run(Apply(l, cmds[0]), cmds[1..])
  }

  /** Over any sequence of commands, removals included, a contract present
      at the start and at the end only ever left ACTIVE: once TERMINATED or
      EXPIRED it stays so. A removed key never comes back. */
  lemma {:induction false} LifecycleHoldsOverRuns(l: Ledger, cmds: seq<Command>)
    requires Tracked(l)
    ensures Tracked(Run(l, cmds)) && l.used <= Run(l, cmds).used
    ensures forall k :: k in Run(l, cmds).table && k !in l.table ==> k !in l.used
    ensures LifecycleStep(l.table, Run(l, cmds).table)
    decreases |cmds|
  {
    if cmds != [] {
      var l1 := Apply(l, cmds[0]);
      LifecycleHoldsOverRuns(l1, cmds[1..]);
    }
  }

  /** The commands that can change a status other than by `update` leave a
      terminated or expired contract entirely untouched. */
  lemma FinalContractsAreUntouched(t: ContractTable, k: string, id: string, end: int, rent: Option<int>, reason: string, date: int, today: int)
    requires k in t && t[k].status != Active
    ensures Renew(t, id, end, rent).state[k] == t[k]
    ensures Terminate(t, id, reason, date).state[k] == t[k]
    ensures CheckExpiredContracts(t, today)[k] == t[k]
  {
  }
}

=== FILE: maintenance.dfy ===
/** The maintenance service: tickets for building equipment. New tickets
    start PENDING; a status update may move a ticket to any status and
    replaces its notes only when non-empty notes are supplied. A missing
    ticket raises a plain `Error`, not a NotFound exception.
 */
module Maintenance {
  import opened Wrappers
  import opened Text
  import opened Tables
  import opened Paging

  datatype MaintenanceType = Preventive | Corrective | Predictive
  datatype MaintenanceStatus = Pending | InProgress | Completed | Cancelled
  datatype Priority = Low | Medium | High

  /** The string stored for a maintenance type. */
  function TypeName(t: MaintenanceType): string {
    match t
    case Preventive => "preventive"
    case Corrective => "corrective"
    case Predictive => "predictive"
  }

  datatype Ticket = Ticket(
    id: string,
    equipmentId: string,
    equipmentName: string,
    maintenanceType: MaintenanceType,
    description: string,
    startDate: int,
    priority: Priority,
    assignedTo: string,
    status: MaintenanceStatus,
    notes: Option<string>)

  type TicketTable = map<string, Ticket>

  /** The body of a create request. */
  datatype NewTicket = NewTicket(
    equipmentId: string,
    equipmentName: string,
    maintenanceType: MaintenanceType,
    description: string,
    startDate: int,
    priority: Priority,
    assignedTo: string)

  /** The body of a status update. */
  datatype StatusChange = StatusChange(status: MaintenanceStatus, notes: Option<string>)

  /** The query of the list endpoint; every part is optional. */
  datatype TicketQuery = TicketQuery(
    page: Option<int>,
    limit: Option<int>,
    status: Option<MaintenanceStatus>,
    maintenanceType: Option<string>,
    startDate: Option<int>,
    endDate: Option<int>)

  const NotFoundMessage := "Maintenance record not found"

  // ---------------------------------------------------------------------
  // The WHERE clause

  /** A condition on the ticket's start date: optional `$gte` and `$lte`. */
  datatype DateRange = DateRange(gte: Option<int>, lte: Option<int>)

  /** The filter object the service builds: a property absent from it does
      not constrain. */
  datatype Where = Where(status: Option<MaintenanceStatus>, maintenanceType: Option<string>, startDate: Option<DateRange>)

  /** The filter built one `if` at a time; the end bound is merged into
      whatever start-date condition is already there. */
  function BuildWhere(q: TicketQuery): Where {
    var w0 := Where(None, None, None);
    var w1 := if q.status.Some? then w0.(status := q.status) else w0;
    var w2 := if Given(q.maintenanceType) then w1.(maintenanceType := q.maintenanceType) else w1;
    var w3 := if q.startDate.Some? then w2.(startDate := Some(DateRange(q.startDate, None))) else w2;
    if q.endDate.Some? then
      var prior := if w3.startDate.Some? then w3.startDate.value else DateRange(None, None);
      w3.(startDate := Some(prior.(lte := q.endDate)))
    else w3
  }

  /** How the database evaluates a filter on one ticket. */
  predicate Holds(w: Where, m: Ticket) {
    && (w.status.Some? ==> m.status == w.status.value)
    && (w.maintenanceType.Some? ==> TypeName(m.maintenanceType) == w.maintenanceType.value)
    && (w.startDate.Some? ==>
          && (w.startDate.value.gte.Some? ==> m.startDate >= w.startDate.value.gte.value)
          && (w.startDate.value.lte.Some? ==> m.startDate <= w.startDate.value.lte.value))
  }

  /** The intended meaning of a query: the conjunction of the given
      conditions, the two dates bounding the start date from both sides. */
  predicate Matches(q: TicketQuery, m: Ticket) {
    && EqualsIfGiven(q.status, m.status)
    && (Given(q.maintenanceType) ==> TypeName(m.maintenanceType) == q.maintenanceType.value)
    && (q.startDate.Some? ==> q.startDate.value <= m.startDate)
    && (q.endDate.Some? ==> m.startDate <= q.endDate.value)
  }

  /** The filter the service builds selects exactly the intended tickets. */
  lemma BuiltFilterMeansConjunction(q: TicketQuery, m: Ticket)
    ensures Holds(BuildWhere(q), m) <==> Matches(q, m)
  {
  }

  /** With both dates given the filter is the closed range on the start
      date; the end bound does not replace the start bound. */
  lemma BothDatesFormClosedRange(q: TicketQuery, m: Ticket)
    requires q.startDate.Some? && q.endDate.Some?
    ensures BuildWhere(q).startDate == Some(DateRange(q.startDate, q.endDate))
    ensures Holds(BuildWhere(q), m) ==> q.startDate.value <= m.startDate <= q.endDate.value
  {
  }

  // ---------------------------------------------------------------------
  // Operations

  function Matching(t: TicketTable, order: seq<string>, q: TicketQuery): seq<Ticket>
    requires IsListing(t, order)
  {
    Query(t, order, m => Holds(BuildWhere(q), m))
  }

  /** GET /maintenance: page (default 1) and limit (default 10) over the
      matching tickets, with their count and `ceil(total / limit)` pages. */
  function FindAll(t: TicketTable, order: seq<string>, q: TicketQuery): (r: Counted<Ticket>)
    requires IsListing(t, order)
    requires ValidRequest(q.page.GetOr(DefaultPage), q.limit.GetOr(DefaultLimit))
    ensures r.page == q.page.GetOr(DefaultPage) && r.limit == q.limit.GetOr(DefaultLimit)
    ensures r.total == |Matching(t, order, q)|
    ensures |r.items| <= r.limit
    ensures forall m :: m in r.items ==> m in t.Values && Matches(q, m)
    ensures r.items == Window(Matching(t, order, q), Offset(q.page.GetOr(DefaultPage), q.limit.GetOr(DefaultLimit)), q.limit.GetOr(DefaultLimit))
    ensures r.totalPages * r.limit >= r.total && (r.totalPages > 0 ==> (r.totalPages - 1) * r.limit < r.total)
    ensures |r.items| > 0 <==> r.page <= r.totalPages
  {
    var matching := Matching(t, order, q);
    var r := PageWithTotals(matching, q.page, q.limit);
    forall m | m in r.items ensures m in matching {
      var i :| 0 <= i < |r.items| && r.items[i] == m;
    }
    r
  }

  /** POST /maintenance: the seven request fields are copied and the
      status is PENDING. */
  function Create(t: TicketTable, dto: NewTicket, freshId: string): (r: Step<TicketTable, Ticket>)
    requires freshId !in t
    ensures r.result.Ok?
    ensures var m := r.result.value;
      && r.state == t[freshId := m]
      && m.id == freshId
      && m.status == Pending
      && m.notes.None?
      && NewTicket(m.equipmentId, m.equipmentName, m.maintenanceType, m.description, m.startDate, m.priority, m.assignedTo) == dto
  {
    var m := Ticket(freshId, dto.equipmentId, dto.equipmentName, dto.maintenanceType, dto.description,
                    dto.startDate, dto.priority, dto.assignedTo, Pending, None);
    Step(t[freshId := m], Ok(m))
  }

  /** PATCH /maintenance/:id/status: any status may follow any other; the
      notes change only when non-empty notes are supplied. */
  function UpdateStatus(t: TicketTable, id: string, change: StatusChange): (r: Step<TicketTable, Ticket>)
    ensures id !in t ==> r == Step(t, Err(Failure(NotFoundMessage)))
    ensures id in t ==> r.result.Ok?
    ensures r.result.Ok? ==>
      var (m, m') := (t[id], r.result.value);
      && r.state == t[id := m']
      && m'.status == change.status
      && (Given(change.notes) ==> m'.notes == change.notes)
      && (!Given(change.notes) ==> m'.notes == m.notes)
      && m' == m.(status := m'.status, notes := m'.notes)
  {
    if id !in t then Step(t, Err(Failure(NotFoundMessage)))
    else
      var m := t[id];
      var m' := m.(status := change.status, notes := if Given(change.notes) then change.notes else m.notes);
      Step(t[id := m'], Ok(m'))
  }

  /** GET /maintenance/:id. */
  function FindOne(t: TicketTable, id: string): (r: Result<Ticket>)
    ensures r.Ok? <==> id in t
    ensures r.Ok? ==> r.value == t[id]
    ensures r.Err? ==> r.error == Failure(NotFoundMessage)
  {
    if id in t then Ok(t[id]) else Err(Failure(NotFoundMessage))
  }

  /** A ticket just created is found under its key, PENDING. */
  lemma FindOneAfterCreate(t: TicketTable, dto: NewTicket, freshId: string)
    requires freshId !in t
    ensures FindOne(Create(t, dto, freshId).state, freshId) == Ok(Create(t, dto, freshId).result.value)
    ensures FindOne(Create(t, dto, freshId).state, freshId).value.status == Pending
  {
  }

  /** Status updates have no transition guard: from any ticket, every
      status is reachable in one step. */
  lemma EveryStatusReachable(t: TicketTable, id: string, target: MaintenanceStatus)
    requires id in t
    ensures UpdateStatus(t, id, StatusChange(target, None)).state[id].status == target
    ensures UpdateStatus(t, id, StatusChange(target, None)).state[id].notes == t[id].notes
  {
  }
}

=== FILE: paging.dfy ===
/** The three pagination schemes of the list endpoints, as integer
    functions of the page number, the page size and the matching rows.

    - offset plus count (contracts, rooms, tenants):
      `hasMore = offset + returned < total`;
    - fetch `limit + 1` rows and drop the extra one (transactions):
      `hasMore = fetched > limit`;
    - `totalPages = ceil(total / limit)` (users, maintenance).

    In every scheme `offset = (page - 1) * limit`.
 */
module Paging {
  import opened Wrappers

  const DefaultPage := 1
  const DefaultLimit := 10

  /** A page with the `{ data, meta: { hasMore, page, limit } }` shape. */
  datatype Listing<T> = Listing(data: seq<T>, hasMore: bool, page: int, limit: int)

  /** A page with the `{ items, total, page, limit, totalPages }` shape. */
  datatype Counted<T> = Counted(items: seq<T>, total: nat, page: int, limit: int, totalPages: nat)

  /** A page request the database can serve: pages count from 1 and hold
      at least one row. */
  predicate ValidRequest(page: int, limit: int) {
    page >= 1 && limit >= 1
  }

  function Min(a: int, b: int): int {
    if a <= b then a else b
  }

  /** The number of rows skipped before the page starts. */
  function Offset(page: int, limit: int): nat
    requires ValidRequest(page, limit)
  {
    MulMonotone(0, page - 1, limit);
    (page - 1) * limit
  }

  /** What the database returns for `OFFSET offset LIMIT limit`. */
  function Window<T>(rows: seq<T>, offset: nat, limit: nat): (w: seq<T>)
    ensures |w| == if offset >= |rows| then 0 else Min(limit, |rows| - offset)
    ensures forall i :: 0 <= i < |w| ==> w[i] == rows[offset + i]
  {
    if offset >= |rows| then [] else rows[offset..offset + Min(limit, |rows| - offset)]
  }

  /** Offset-plus-count pagination: `hasMore` compares the rows seen so far
      with a separately counted total. */
  function PageByCount<T>(matching: seq<T>, page: int, limit: int): (r: Listing<T>)
    requires ValidRequest(page, limit)
    ensures r.page == page && r.limit == limit
    ensures |r.data| <= limit
    ensures forall i :: 0 <= i < |r.data| ==> Offset(page, limit) + i < |matching| && r.data[i] == matching[Offset(page, limit) + i]
    ensures r.hasMore <==> Offset(page, limit) + limit < |matching|
    ensures r.hasMore ==> |r.data| == limit
    ensures r.data == Window(matching, Offset(page, limit), limit)
  {
    var offset := Offset(page, limit);
    var data := Window(matching, offset, limit);
    Listing(data, offset + |data| < |matching|, page, limit)
  }

  /** Look-ahead pagination: fetch one row more than asked for; if it came
      back there is more, and it is dropped from the page. */
  function PageByLookahead<T>(matching: seq<T>, page: int, limit: int): (r: Listing<T>)
    requires ValidRequest(page, limit)
    ensures r.page == page && r.limit == limit
    ensures |r.data| <= limit
    ensures r.hasMore <==> |Window(matching, Offset(page, limit), limit + 1)| > limit
    ensures r.hasMore ==> r.data == Window(matching, Offset(page, limit), limit + 1)[..limit]
    ensures !r.hasMore ==> r.data == Window(matching, Offset(page, limit), limit + 1)
  {
    var fetched := Window(matching, Offset(page, limit), limit + 1);
    var hasMore := |fetched| > limit;
    var items := if hasMore then fetched[..|fetched| - 1] else fetched;
    Listing(items, hasMore, page, limit)
  }

  /** The two `hasMore` schemes agree: fetching one row extra yields the
      same page and the same flag as counting the total. */
  lemma LookaheadAgreesWithCount<T>(matching: seq<T>, page: int, limit: int)
    requires ValidRequest(page, limit)
    ensures PageByLookahead(matching, page, limit) == PageByCount(matching, page, limit)
  {
    var offset := Offset(page, limit);
    var a := PageByLookahead(matching, page, limit);
    var b := PageByCount(matching, page, limit);
    var fetched := Window(matching, offset, limit + 1);
    assert a.data == b.data by {
      assert |a.data| == |b.data|;
      forall i | 0 <= i < |a.data| ensures a.data[i] == b.data[i] {
        assert a.data[i] == fetched[i];
      }
    }
  }

  /** `Math.ceil(total / limit)`. */
  function TotalPages(total: nat, limit: int): (n: nat)
    requires limit >= 1
    ensures n * limit >= total
    ensures n > 0 ==> (n - 1) * limit < total
    ensures n == 0 <==> total == 0
  {
    var n := (total + limit - 1) / limit;
    CeilBounds(total, limit, n);
    n
  }

  lemma CeilBounds(total: nat, limit: int, n: int)
    requires limit >= 1
    requires n == (total + limit - 1) / limit
    ensures n >= 0
    ensures n * limit >= total
    ensures n > 0 ==> (n - 1) * limit < total
    ensures n == 0 <==> total == 0
  {
    var m := total + limit - 1;
    var rem := m % limit;
    assert m == n * limit + rem && 0 <= rem < limit;
  }

  lemma MulMonotone(a: int, b: int, c: int)
    requires a <= b && c >= 0
    ensures a * c <= b * c
  {
  }

  /** A page holds rows exactly when its number is at most `totalPages`:
      `totalPages` is the number of non-empty pages. */
  lemma {:induction false} PageNonEmptyIffWithinTotalPages<T>(matching: seq<T>, page: int, limit: int)
    requires ValidRequest(page, limit)
    ensures |Window(matching, Offset(page, limit), limit)| > 0 <==> page <= TotalPages(|matching|, limit)
  {
    var n := TotalPages(|matching|, limit);
    if page <= n {
      MulMonotone(page - 1, n - 1, limit);
    } else {
      MulMonotone(n, page - 1, limit);
    }
  }

  /** Count-and-ceil pagination, with the defaults of 1 and 10 for a
      missing page or page size. */
  function PageWithTotals<T>(matching: seq<T>, page: Option<int>, limit: Option<int>): (r: Counted<T>)
    requires ValidRequest(page.GetOr(DefaultPage), limit.GetOr(DefaultLimit))
    ensures r.page == page.GetOr(DefaultPage) && r.limit == limit.GetOr(DefaultLimit)
    ensures r.total == |matching|
    ensures r.items == PageByCount(matching, r.page, r.limit).data
    ensures |r.items| > 0 <==> 1 <= r.page <= r.totalPages
    ensures r.totalPages * r.limit >= r.total
  {
    var p := page.GetOr(DefaultPage);
    var l := limit.GetOr(DefaultLimit);
    PageNonEmptyIffWithinTotalPages(matching, p, l);
    Counted(Window(matching, Offset(p, l), l), |matching|, p, l, TotalPages(|matching|, l))
  }
}

=== FILE: phone.dfy ===
/** The Vietnamese phone-number validator: a value is accepted when it is
    a string matching the anchored pattern `^(0[3-9][0-9]{8})$`, that is a
    `0`, a digit from 3 to 9, then eight more digits.
 */
module Phone {
  import opened Text

  /** The validated value, of any JavaScript type. */
  datatype Value = Str(s: string) | NonString

  /** One position of an anchored pattern without repetition operators. */
  datatype CharClass = Exactly(literal: char) | Between(lo: char, hi: char)

  predicate InClass(c: char, k: CharClass) {
    if k.Exactly? then c == k.literal else k.lo <= c <= k.hi
  }

  /** `0[3-9][0-9]{8}` with the repetition spelled out. */
  const Digit := Between('0', '9')
  const Pattern: seq<CharClass> := [Exactly('0'), Between('3', '9'), Digit, Digit, Digit, Digit, Digit, Digit, Digit, Digit]

  /** Anchored matching of `s` against a pattern, one class per character. */
  function Match(p: seq<CharClass>, s: string): bool
    decreases |p|
  {
    if p == [] then s == []
    else s != [] && InClass(s[0], p[0]) && Match(p[1..], s[1..])
  }

  /** The shape the pattern describes, stated position by position. */
  predicate IsVietnamesePhone(s: string) {
    && |s| == 10
    && s[0] == '0'
    && '3' <= s[1] <= '9'
    && AllDigits(s)
  }

  lemma {:induction false} MatchIsPositionwise(p: seq<CharClass>, s: string)
    ensures Match(p, s) <==> |p| == |s| && forall i :: 0 <= i < |p| ==> InClass(s[i], p[i])
    decreases |p|
  {
    if p != [] && s != [] {
      MatchIsPositionwise(p[1..], s[1..]);
      if |p| == |s| && InClass(s[0], p[0]) && (forall i :: 0 <= i < |p| - 1 ==> InClass(s[1..][i], p[1..][i])) {
        forall i | 0 <= i < |p| ensures InClass(s[i], p[i]) {
          if i > 0 {
            assert InClass(s[1..][i - 1], p[1..][i - 1]);
          }
        }
      }
    }
  }

  /** The decorator's `validate`: non-strings are rejected, strings must
      match the pattern. */
  function Validate(v: Value): (ok: bool)
    ensures v.NonString? ==> !ok
    ensures ok <==> v.Str? && IsVietnamesePhone(v.s)
  {
    if v.NonString? then false
    else
      MatchIsPositionwise(Pattern, v.s);
      assert Match(Pattern, v.s) <==> IsVietnamesePhone(v.s) by {
        if |v.s| == 10 {
          assert forall i :: 2 <= i < 10 ==> Pattern[i] == Between('0', '9');
        }
      }
      Match(Pattern, v.s)
  }

  /** The same check as a single left-to-right scan over the string. */
  method ValidateByScan(v: Value) returns (ok: bool)
    ensures ok <==> Validate(v)
  {
    if v.NonString? || |v.s| != 10 {
      return false;
    }
    var s := v.s;
    ok := s[0] == '0' && '3' <= s[1] <= '9';
    var i := 0;
    while i < |s|
      invariant 0 <= i <= |s|
      invariant ok <==> s[0] == '0' && '3' <= s[1] <= '9' && forall j :: 0 <= j < i ==> IsDigit(s[j])
    {
      ok := ok && IsDigit(s[i]);
      i := i + 1;
    }
  }

  lemma Examples()
    ensures Validate(Str("0912345678"))
    ensures !Validate(Str("0212345678"))
    ensures !Validate(Str("091234567"))
    ensures !Validate(Str("+84912345678"))
  {
    assert IsVietnamesePhone("0912345678");
    assert "0212345678"[1] == '2';
    assert "+84912345678"[0] == '+';
  }
}

=== FILE: rooms.dfy ===
/** The rooms service: rentable rooms with a type, a price and an
    occupancy status. Updates copy every supplied property over the stored
    room (`Object.assign`), whatever its value.
 */
module Rooms {
  import opened Wrappers
  import opened Text
  import opened Tables
  import opened Paging

  datatype RoomStatus = Vacant | Occupied | UnderMaintenance

  datatype Room = Room(
    id: string,
    name: string,
    roomType: string,
    floor: Option<int>,
    area: Option<int>,
    price: int,
    status: RoomStatus,
    description: Option<string>,
    amenities: Option<seq<string>>)

  type RoomTable = map<string, Room>

  /** The body of a create request. */
  datatype NewRoom = NewRoom(
    name: string,
    roomType: string,
    price: int,
    status: RoomStatus,
    description: Option<string>,
    floor: Option<int>,
    area: Option<int>)

  /** The body of an update request: a partial create request. */
  datatype RoomPatch = RoomPatch(
    name: Option<string>,
    roomType: Option<string>,
    price: Option<int>,
    status: Option<RoomStatus>,
    description: Option<string>,
    floor: Option<int>,
    area: Option<int>)

  /** The list query's WHERE clause: the search term in name or type, and
      the status when given. */
  predicate Matches(search: Option<string>, status: Option<RoomStatus>, r: Room) {
    SearchMatches(search, [r.name, r.roomType]) && EqualsIfGiven(status, r.status)
  }

  function Matching(t: RoomTable, order: seq<string>, search: Option<string>, status: Option<RoomStatus>): seq<Room>
    requires IsListing(t, order)
  {
    Query(t, order, r => Matches(search, status, r))
  }

  /** GET /rooms: offset-plus-count pagination over the matching rooms. */
  function FindAll(t: RoomTable, order: seq<string>, page: int, limit: int, search: Option<string>, status: Option<RoomStatus>): (r: Listing<Room>)
    requires IsListing(t, order)
    requires ValidRequest(page, limit)
    ensures r.page == page && r.limit == limit
    ensures |r.data| <= limit
    ensures forall x :: x in r.data ==> x in t.Values && Matches(search, status, x)
    ensures r.data == Window(Matching(t, order, search, status), Offset(page, limit), limit)
    ensures r.hasMore <==> Offset(page, limit) + |r.data| < |Matching(t, order, search, status)|
    ensures r.hasMore <==> Offset(page, limit) + limit < |Matching(t, order, search, status)|
  {
    var matching := Matching(t, order, search, status);
    var r := PageByCount(matching, page, limit);
    forall x | x in r.data ensures x in matching {
      var i :| 0 <= i < |r.data| && r.data[i] == x;
    }
    r
  }

  /** GET /rooms/:id. */
  function FindOne(t: RoomTable, id: string): (r: Result<Room>)
    ensures r.Ok? <==> id in t
    ensures r.Ok? ==> r.value == t[id]
    ensures r.Err? ==> r.error == NotFound(RoomKind)
  {
    Lookup(t, id, RoomKind)
  }

  /** POST /rooms: the request's properties become the room. */
  function Create(t: RoomTable, dto: NewRoom, freshId: string): (r: Step<RoomTable, Room>)
    requires freshId !in t
    ensures r.result.Ok?
    ensures var x := r.result.value;
      && r.state == t[freshId := x]
      && x.id == freshId
      && NewRoom(x.name, x.roomType, x.price, x.status, x.description, x.floor, x.area) == dto
      && x.amenities.None?
  {
    var x := Room(freshId, dto.name, dto.roomType, dto.floor, dto.area, dto.price, dto.status, dto.description, None);
    Step(t[freshId := x], Ok(x))
  }

  /** `Object.assign(room, patch)`. */
  function Assign(x: Room, p: RoomPatch): (y: Room)
    ensures y.id == x.id && y.amenities == x.amenities
    ensures p.name.Some? ==> y.name == p.name.value
    ensures p.name.None? ==> y.name == x.name
    ensures p.roomType.Some? ==> y.roomType == p.roomType.value
    ensures p.roomType.None? ==> y.roomType == x.roomType
    ensures p.price.Some? ==> y.price == p.price.value
    ensures p.price.None? ==> y.price == x.price
    ensures p.status.Some? ==> y.status == p.status.value
    ensures p.status.None? ==> y.status == x.status
    ensures p.description.Some? ==> y.description == p.description
    ensures p.description.None? ==> y.description == x.description
    ensures p.floor.Some? ==> y.floor == p.floor
    ensures p.floor.None? ==> y.floor == x.floor
    ensures p.area.Some? ==> y.area == p.area
    ensures p.area.None? ==> y.area == x.area
  {
    x.(name := p.name.GetOr(x.name),
       roomType := p.roomType.GetOr(x.roomType),
       price := p.price.GetOr(x.price),
       status := p.status.GetOr(x.status),
       description := if p.description.Some? then p.description else x.description,
       floor := if p.floor.Some? then p.floor else x.floor,
       area := if p.area.Some? then p.area else x.area)
  }

  /** PATCH /rooms/:id: overwrite exactly the supplied properties. */
  function Update(t: RoomTable, id: string, patch: RoomPatch): (r: Step<RoomTable, Room>)
    ensures id !in t ==> r == Step(t, Err(NotFound(RoomKind)))
    ensures id in t ==> r.result.Ok? && r.result.value == Assign(t[id], patch) && r.state == t[id := r.result.value]
  {
    match FindOne(t, id)
    case Err(e) => Step(t, Err(e))
    case Ok(x) =>
      var y := Assign(x, patch);
      Step(t[id := y], Ok(y))
  }

  /** Sending the same update twice has the effect of sending it once. */
  lemma UpdateIsIdempotent(t: RoomTable, id: string, patch: RoomPatch)
    ensures Update(Update(t, id, patch).state, id, patch) == Update(t, id, patch)
  {
    if id in t {
      var y := Assign(t[id], patch);
      assert Assign(y, patch) == y;
      assert t[id := y][id := y] == t[id := y];
    }
  }

  /** DELETE /rooms/:id. `named` holds the room ids that some stored
      contract refers to: the contract's `room_id` foreign key has no
      ON DELETE rule, so the database refuses to delete such a room on
      flush and nothing changes. Any other stored room is deleted. */
  function Remove(t: RoomTable, id: string, named: set<string>): (r: Step<RoomTable, ()>)
    ensures r.result.Ok? <==> id in t && id !in named
    ensures id !in t ==> r == Step(t, Err(NotFound(RoomKind)))
    ensures id in t && id in named ==> r == Step(t, Err(Rejected))
    ensures r.result.Ok? ==> r.state.Keys == t.Keys - {id}
    ensures forall k :: k in r.state ==> k in t && r.state[k] == t[k]
  {
    match FindOne(t, id)
    case Err(e) => Step(t, Err(e))
    case Ok(_) => if id in named then Step(t, Err(Rejected)) else Step(t - {id}, Ok(()))
  }

  /** Deleting a room just created restores the table, and until then it
      is found under its key. */
  lemma RemoveUndoesCreate(t: RoomTable, dto: NewRoom, freshId: string, named: set<string>)
    requires freshId !in t
    ensures FindOne(Create(t, dto, freshId).state, freshId) == Create(t, dto, freshId).result
    ensures freshId !in named ==> Remove(Create(t, dto, freshId).state, freshId, named).state == t
    ensures freshId in named ==> Remove(Create(t, dto, freshId).state, freshId, named).result == Err(Rejected)
  {
  }

  /** PATCH /rooms/:id/status: only the status changes. */
  function UpdateStatus(t: RoomTable, id: string, status: RoomStatus): (r: Step<RoomTable, Room>)
    ensures id !in t ==> r == Step(t, Err(NotFound(RoomKind)))
    ensures id in t ==> r.result.Ok? && r.result.value == t[id].(status := status) && r.state == t[id := r.result.value]
  {
    match FindOne(t, id)
    case Err(e) => Step(t, Err(e))
    case Ok(x) =>
      var y := x.(status := status);
      Step(t[id := y], Ok(y))
  }

  /** A status change is the update that supplies only a status. */
  lemma UpdateStatusIsStatusOnlyUpdate(t: RoomTable, id: string, status: RoomStatus)
    ensures UpdateStatus(t, id, status) == Update(t, id, RoomPatch(None, None, None, Some(status), None, None, None))
  {
  }
}

=== FILE: settings.dfy ===
/** The settings service: one row of building information, user
    preferences and finance categories. The row is created with fixed
    defaults the first time it is asked for; each update replaces one group
    of fields and leaves the other two groups alone.

    The table is the sequence of stored rows; the ORM's `findOne` with an
    empty filter returns the first of them.
 */
module Settings {
  import opened Wrappers

  datatype Building = Building(name: string, address: string, phone: string, email: string)

  datatype Preferences = Preferences(
    language: string,
    notifications: bool,
    emailNotifications: bool,
    currency: string,
    timezone: string,
    dateFormat: string)

  datatype Categories = Categories(income: seq<string>, expense: seq<string>)

  datatype Settings = Settings(id: string, building: Building, preferences: Preferences, categories: Categories)

  type SettingsTable = seq<Settings>

  const DefaultBuilding := Building("", "", "", "")
  const DefaultPreferences := Preferences("vi", true, true, "VND", "Asia/Ho_Chi_Minh", "DD/MM/YYYY")
  const DefaultCategories := Categories(
    ["Tiền thuê phòng", "Tiền cọc", "Khác"],
    ["Điện", "Nước", "Internet", "Bảo trì", "Khác"])

  /** The row written when none exists; `freshId` is the generated key. */
  function Defaults(freshId: string): (s: Settings)
    ensures s.id == freshId
    ensures s.building.name == "" && s.building.address == "" && s.building.phone == "" && s.building.email == ""
    ensures s.preferences.language == "vi" && s.preferences.currency == "VND"
    ensures s.preferences.notifications && s.preferences.emailNotifications
    ensures s.preferences.timezone == "Asia/Ho_Chi_Minh" && s.preferences.dateFormat == "DD/MM/YYYY"
    ensures s.categories.income == ["Tiền thuê phòng", "Tiền cọc", "Khác"]
    ensures s.categories.expense == ["Điện", "Nước", "Internet", "Bảo trì", "Khác"]
  {
    Settings(freshId, DefaultBuilding, DefaultPreferences, DefaultCategories)
  }

  /** GET /settings: the stored row if there is one, else a new row with
      the defaults, persisted. */
  function GetSettings(t: SettingsTable, freshId: string): (r: Step<SettingsTable, Settings>)
    ensures r.result.Ok?
    ensures |t| > 0 ==> r.state == t && r.result.value == t[0]
    ensures |t| == 0 ==> r.state == [r.result.value] && r.result.value == Defaults(freshId)
    ensures |r.state| > 0 && r.state[0] == r.result.value
  {
    if |t| > 0 then Step(t, Ok(t[0]))
    else
      var s := Defaults(freshId);
      Step([s], Ok(s))
  }

  /** Asking twice creates at most one row: the second call finds the row
      the first one wrote. */
  lemma GetSettingsIsIdempotent(t: SettingsTable, id1: string, id2: string)
    ensures var first := GetSettings(t, id1);
            GetSettings(first.state, id2) == first
    ensures |GetSettings(t, id1).state| == if |t| == 0 then 1 else |t|
  {
  }

  /** The shared shape of the three updates: materialise the row, change
      it, write it back in place. */
  function UpdateFirst(t: SettingsTable, freshId: string, change: Settings -> Settings): (r: Step<SettingsTable, Settings>)
    ensures |t| > 0 ==> r == Step(t[0 := change(t[0])], Ok(change(t[0])))
    ensures |t| == 0 ==> r == Step([change(Defaults(freshId))], Ok(change(Defaults(freshId))))
  {
    var got := GetSettings(t, freshId);
    var s' := change(got.result.value);
    assert |t| == 0 ==> got.state[0 := s'] == [s'];
    Step(got.state[0 := s'], Ok(s'))
  }

  /** PUT /settings/building: exactly the four building fields change. */
  function UpdateBuilding(t: SettingsTable, freshId: string, b: Building): (r: Step<SettingsTable, Settings>)
    ensures r.result.Ok?
    ensures var before := GetSettings(t, freshId);
      && r.result.value.building == b
      && r.result.value.id == before.result.value.id
      && r.result.value.preferences == before.result.value.preferences
      && r.result.value.categories == before.result.value.categories
      && |r.state| == |before.state| && r.state[0] == r.result.value
      && r.state[1..] == before.state[1..]
  {
    UpdateFirst(t, freshId, (s: Settings) => s.(building := b))
  }

  /** PUT /settings/preferences: exactly the six preference fields change. */
  function UpdatePreferences(t: SettingsTable, freshId: string, p: Preferences): (r: Step<SettingsTable, Settings>)
    ensures r.result.Ok?
    ensures var before := GetSettings(t, freshId);
      && r.result.value.preferences == p
      && r.result.value.id == before.result.value.id
      && r.result.value.building == before.result.value.building
      && r.result.value.categories == before.result.value.categories
      && |r.state| == |before.state| && r.state[0] == r.result.value
      && r.state[1..] == before.state[1..]
  {
    UpdateFirst(t, freshId, (s: Settings) => s.(preferences := p))
  }

  /** PUT /settings/categories: both category lists are replaced whole. */
  function UpdateCategories(t: SettingsTable, freshId: string, income: seq<string>, expense: seq<string>): (r: Step<SettingsTable, Settings>)
    ensures r.result.Ok?
    ensures var before := GetSettings(t, freshId);
      && r.result.value.categories == Categories(income, expense)
      && r.result.value.id == before.result.value.id
      && r.result.value.building == before.result.value.building
      && r.result.value.preferences == before.result.value.preferences
      && |r.state| == |before.state| && r.state[0] == r.result.value
      && r.state[1..] == before.state[1..]
  {
    UpdateFirst(t, freshId, (s: Settings) => s.(categories := Categories(income, expense)))
  }

  /** On an empty table an update first writes the defaults and then
      changes its own group only: the other groups read as the defaults. */
  lemma UpdateOnEmptyStartsFromDefaults(freshId: string, b: Building, p: Preferences)
    ensures UpdateBuilding([], freshId, b).state == [Settings(freshId, b, DefaultPreferences, DefaultCategories)]
    ensures UpdatePreferences([], freshId, p).state == [Settings(freshId, DefaultBuilding, p, DefaultCategories)]
  {
  }

  /** Updates of different groups commute: neither sees the other's
      fields. */
  lemma BuildingAndPreferencesCommute(t: SettingsTable, freshId: string, b: Building, p: Preferences)
    ensures UpdatePreferences(UpdateBuilding(t, freshId, b).state, freshId, p).state
         == UpdateBuilding(UpdatePreferences(t, freshId, p).state, freshId, b).state
  {
  }

  /** A categories update commutes with the building and the preference
      updates. */
  lemma CategoriesCommute(t: SettingsTable, freshId: string, b: Building, p: Preferences, income: seq<string>, expense: seq<string>)
    ensures UpdateCategories(UpdateBuilding(t, freshId, b).state, freshId, income, expense).state
         == UpdateBuilding(UpdateCategories(t, freshId, income, expense).state, freshId, b).state
    ensures UpdateCategories(UpdatePreferences(t, freshId, p).state, freshId, income, expense).state
         == UpdatePreferences(UpdateCategories(t, freshId, income, expense).state, freshId, p).state
  {
  }
}

=== FILE: tables.dfy ===
/** The abstract in-memory store standing in for the ORM's EntityManager.

    A table is a `map` from primary key to record. The order in which the
    database returns rows is not determined by the services, so list queries
    take it as a parameter `order`: a sequence listing every key of the table
    exactly once.
 */
module Tables {
  import opened Wrappers

  /** `order` lists each key of `t` exactly once. */
  predicate IsListing<K, R>(t: map<K, R>, order: seq<K>) {
    && (forall i, j :: 0 <= i < j < |order| ==> order[i] != order[j])
    && (forall i :: 0 <= i < |order| ==> order[i] in t)
    && (forall k :: k in t ==> k in order)
  }

  /** A sequence without repetitions has as many distinct elements as it
      has positions. */
  lemma {:induction false} DistinctCardinality<K>(s: seq<K>)
    requires forall i, j :: 0 <= i < j < |s| ==> s[i] != s[j]
    ensures |set x | x in s| == |s|
  {
    if s != [] {
      DistinctCardinality(s[1..]);
      var rest := set x | x in s[1..];
      assert (set x | x in s) == {s[0]} + rest;
      assert s[0] !in rest by {
        forall j | 0 <= j < |s[1..]| ensures s[1..][j] != s[0] {
          assert s[1..][j] == s[j + 1];
        }
      }
    }
  }

  /** A listing visits every record once, so it is as long as the table. */
  lemma ListingLength<K, R>(t: map<K, R>, order: seq<K>)
    requires IsListing(t, order)
    ensures |order| == |t|
  {
    DistinctCardinality(order);
    assert (set x | x in order) == t.Keys;
  }

  /** The table's records in listing order. */
  function Rows<K, R>(t: map<K, R>, order: seq<K>): (rows: seq<R>)
    requires forall i :: 0 <= i < |order| ==> order[i] in t
    ensures |rows| == |order|
    ensures forall i :: 0 <= i < |rows| ==> rows[i] == t[order[i]]
  {
    seq(|order|, i requires 0 <= i < |order| => t[order[i]])
  }

  /** `a` is `b` with some positions dropped, the rest kept in order. */
  predicate IsSubsequence<T(==)>(a: seq<T>, b: seq<T>)
    decreases |b|
  {
    if a == [] then true
    else if b == [] then false
    else (a[0] == b[0] && IsSubsequence(a[1..], b[1..])) || IsSubsequence(a, b[1..])
  }

  /** The rows satisfying `p`, in their original order: a subsequence of
      `rows` holding every accepted row as often as `rows` does, and no
      other row. */
  function Select<T(==,!new)>(rows: seq<T>, p: T -> bool): (r: seq<T>)
    ensures |r| <= |rows|
    ensures forall x :: x in r <==> x in rows && p(x)
    ensures IsSubsequence(r, rows)
  {
    if rows == [] then []
    else
      var rest := Select(rows[1..], p);
      assert rows == [rows[0]] + rows[1..];
      if p(rows[0]) then
        assert ([rows[0]] + rest)[1..] == rest;
        [rows[0]] + rest
      else rest
  }

  /** Selection keeps each accepted row exactly as often as the input has
      it, and drops every other row. */
  lemma {:induction false} SelectCounts<T(!new)>(rows: seq<T>, p: T -> bool, x: T)
    ensures multiset(Select(rows, p))[x] == (if p(x) then multiset(rows)[x] else 0)
  {
    if rows != [] {
      SelectCounts(rows[1..], p, x);
      assert rows == [rows[0]] + rows[1..];
    }
  }

  /** The records of `t` a WHERE clause `p` selects, in listing order. */
  function Query<K, R(==,!new)>(t: map<K, R>, order: seq<K>, p: R -> bool): (r: seq<R>)
    requires IsListing(t, order)
    ensures forall x :: x in r ==> p(x) && x in t.Values
  {
    Select(Rows(t, order), p)
  }

  /** A query returns every stored record the WHERE clause accepts, and
      nothing else. */
  lemma QueryIsComplete<K, R(!new)>(t: map<K, R>, order: seq<K>, p: R -> bool, k: K)
    requires IsListing(t, order)
    requires k in t
    ensures t[k] in Query(t, order, p) <==> p(t[k])
  {
    var i :| 0 <= i < |order| && order[i] == k;
    assert Rows(t, order)[i] == t[k];
  }

  /** A query returns one row per stored key the WHERE clause accepts, so
      its length is the count of matching records the services report. */
  lemma QueryCountsMatches<K, R(!new)>(t: map<K, R>, order: seq<K>, p: R -> bool)
    requires IsListing(t, order)
    ensures |Query(t, order, p)| == |set k | k in t && p(t[k])|
  {
    SelectedKeys(t, order, p);
    assert (set k | k in order && p(t[k])) == (set k | k in t && p(t[k]));
  }

  lemma {:induction false} SelectedKeys<K, R(!new)>(t: map<K, R>, ks: seq<K>, p: R -> bool)
    requires forall i, j :: 0 <= i < j < |ks| ==> ks[i] != ks[j]
    requires forall i :: 0 <= i < |ks| ==> ks[i] in t
    ensures |Select(Rows(t, ks), p)| == |set k | k in ks && p(t[k])|
  {
    if ks != [] {
      var rest := ks[1..];
      SelectedKeys(t, rest, p);
      assert Rows(t, ks)[1..] == Rows(t, rest);
      var tail := set k | k in rest && p(t[k]);
      assert ks[0] !in rest by {
        forall j | 0 <= j < |rest| ensures rest[j] != ks[0] {
          assert rest[j] == ks[j + 1];
        }
      }
      if p(t[ks[0]]) {
        assert (set k | k in ks && p(t[k])) == {ks[0]} + tail;
      } else {
        assert (set k | k in ks && p(t[k])) == tail;
      }
    }
  }

  /** `findOne` by primary key. */
  function Lookup<K, R>(t: map<K, R>, id: K, kind: EntityKind): (r: Result<R>)
    ensures r.Ok? <==> id in t
    ensures r.Ok? ==> r.value == t[id]
    ensures r.Err? ==> r.error == NotFound(kind)
  {
    if id in t then Ok(t[id]) else Err(NotFound(kind))
  }
}

=== FILE: tenants.dfy ===
/** The tenants service: people renting rooms. A new tenant is always
    ACTIVE; updates copy every supplied property over the stored tenant
    (`Object.assign`); the status can be set either way.
 */
module Tenants {
  import opened Wrappers
  import opened Text
  import opened Tables
  import opened Paging

  /** The tenant's status is a plain string column with no CHECK
      constraint, and the status route forwards whatever string the body
      carries; the service itself only ever writes these two names. */
  const Active: string := "active"
  const Inactive: string := "inactive"

  datatype Tenant = Tenant(
    id: string,
    name: string,
    email: string,
    phone: string,
    identityCard: Option<string>,
    dateOfBirth: Option<int>,
    address: Option<string>,
    startDate: Option<int>,
    endDate: Option<int>,
    status: string)

  type TenantTable = map<string, Tenant>

  /** The body of a create request (also, with every field optional, of
      an update request). */
  datatype NewTenant = NewTenant(
    name: string,
    email: string,
    phone: string,
    identityCard: Option<string>,
    dateOfBirth: Option<int>,
    address: Option<string>,
    startDate: Option<int>,
    endDate: Option<int>)

  datatype TenantPatch = TenantPatch(
    name: Option<string>,
    email: Option<string>,
    phone: Option<string>,
    identityCard: Option<string>,
    dateOfBirth: Option<int>,
    address: Option<string>,
    startDate: Option<int>,
    endDate: Option<int>)

  /** The list query's WHERE clause: the search term in name or email. */
  predicate Matches(search: Option<string>, x: Tenant) {
    SearchMatches(search, [x.name, x.email])
  }

  function Matching(t: TenantTable, order: seq<string>, search: Option<string>): seq<Tenant>
    requires IsListing(t, order)
  {
    Query(t, order, x => Matches(search, x))
  }

  /** GET /tenants: offset-plus-count pagination over the matching tenants. */
  function FindAll(t: TenantTable, order: seq<string>, page: int, limit: int, search: Option<string>): (r: Listing<Tenant>)
    requires IsListing(t, order)
    requires ValidRequest(page, limit)
    ensures r.page == page && r.limit == limit
    ensures |r.data| <= limit
    ensures forall x :: x in r.data ==> x in t.Values && Matches(search, x)
    ensures r.data == Window(Matching(t, order, search), Offset(page, limit), limit)
    ensures r.hasMore <==> Offset(page, limit) + |r.data| < |Matching(t, order, search)|
    ensures r.hasMore <==> Offset(page, limit) + limit < |Matching(t, order, search)|
  {
    var matching := Matching(t, order, search);
    var r := PageByCount(matching, page, limit);
    forall x | x in r.data ensures x in matching {
      var i :| 0 <= i < |r.data| && r.data[i] == x;
    }
    r
  }

  /** Without a search term every tenant is listed. */
  lemma NoSearchMatchesEveryone(t: TenantTable, order: seq<string>, k: string)
    requires IsListing(t, order) && k in t
    ensures t[k] in Matching(t, order, None)
    ensures t[k] in Matching(t, order, Some(""))
  {
    QueryIsComplete(t, order, x => Matches(None, x), k);
    QueryIsComplete(t, order, x => Matches(Some(""), x), k);
  }

  /** GET /tenants/:id. */
  function FindOne(t: TenantTable, id: string): (r: Result<Tenant>)
    ensures r.Ok? <==> id in t
    ensures r.Ok? ==> r.value == t[id]
    ensures r.Err? ==> r.error == NotFound(TenantKind)
  {
    Lookup(t, id, TenantKind)
  }

  /** POST /tenants: the request's properties with the status forced to
      ACTIVE. */
  function Create(t: TenantTable, dto: NewTenant, freshId: string): (r: Step<TenantTable, Tenant>)
    requires freshId !in t
    ensures r.result.Ok?
    ensures var x := r.result.value;
      && r.state == t[freshId := x]
      && x.id == freshId
      && x.status == Active
      && NewTenant(x.name, x.email, x.phone, x.identityCard, x.dateOfBirth, x.address, x.startDate, x.endDate) == dto
  {
    var x := Tenant(freshId, dto.name, dto.email, dto.phone, dto.identityCard, dto.dateOfBirth,
                    dto.address, dto.startDate, dto.endDate, Active);
    Step(t[freshId := x], Ok(x))
  }

  function Pick<T>(supplied: Option<T>, current: T): T {
    if supplied.Some? then supplied.value else current
  }

  function PickOptional<T>(supplied: Option<T>, current: Option<T>): Option<T> {
    if supplied.Some? then supplied else current
  }

  /** `Object.assign(tenant, patch)`. */
  function Assign(x: Tenant, p: TenantPatch): (y: Tenant)
    ensures y.id == x.id && y.status == x.status
    ensures p.name.Some? ==> y.name == p.name.value
    ensures p.name.None? ==> y.name == x.name
    ensures p.email.Some? ==> y.email == p.email.value
    ensures p.email.None? ==> y.email == x.email
    ensures p.phone.Some? ==> y.phone == p.phone.value
    ensures p.phone.None? ==> y.phone == x.phone
    ensures p.identityCard.Some? ==> y.identityCard == p.identityCard
    ensures p.identityCard.None? ==> y.identityCard == x.identityCard
    ensures p.dateOfBirth.Some? ==> y.dateOfBirth == p.dateOfBirth
    ensures p.dateOfBirth.None? ==> y.dateOfBirth == x.dateOfBirth
    ensures p.address.Some? ==> y.address == p.address
    ensures p.address.None? ==> y.address == x.address
    ensures p.startDate.Some? ==> y.startDate == p.startDate
    ensures p.startDate.None? ==> y.startDate == x.startDate
    ensures p.endDate.Some? ==> y.endDate == p.endDate
    ensures p.endDate.None? ==> y.endDate == x.endDate
  {
    x.(name := Pick(p.name, x.name),
       email := Pick(p.email, x.email),
       phone := Pick(p.phone, x.phone),
       identityCard := PickOptional(p.identityCard, x.identityCard),
       dateOfBirth := PickOptional(p.dateOfBirth, x.dateOfBirth),
       address := PickOptional(p.address, x.address),
       startDate := PickOptional(p.startDate, x.startDate),
       endDate := PickOptional(p.endDate, x.endDate))
  }

  /** PATCH /tenants/:id: overwrite exactly the supplied properties. */
  function Update(t: TenantTable, id: string, patch: TenantPatch): (r: Step<TenantTable, Tenant>)
    ensures id !in t ==> r == Step(t, Err(NotFound(TenantKind)))
    ensures id in t ==> r.result.Ok? && r.result.value == Assign(t[id], patch) && r.state == t[id := r.result.value]
  {
    match FindOne(t, id)
    case Err(e) => Step(t, Err(e))
    case Ok(x) =>
      var y := Assign(x, patch);
      Step(t[id := y], Ok(y))
  }

  /** Sending the same update twice has the effect of sending it once. */
  lemma UpdateIsIdempotent(t: TenantTable, id: string, patch: TenantPatch)
    ensures Update(Update(t, id, patch).state, id, patch) == Update(t, id, patch)
  {
    if id in t {
      var y := Assign(t[id], patch);
      assert Assign(y, patch) == y;
      assert t[id := y][id := y] == t[id := y];
    }
  }

  /** PATCH /tenants/:id/status: only the status changes, to any string
      the request carries; nothing checks it against the two names. */
  function UpdateStatus(t: TenantTable, id: string, status: string): (r: Step<TenantTable, Tenant>)
    ensures id !in t ==> r == Step(t, Err(NotFound(TenantKind)))
    ensures id in t ==> r.result.Ok? && r.result.value == t[id].(status := status) && r.state == t[id := r.result.value]
  {
    match FindOne(t, id)
    case Err(e) => Step(t, Err(e))
    case Ok(x) =>
      var y := x.(status := status);
      Step(t[id := y], Ok(y))
  }

  /** Setting any status and then setting back the one stored before
      restores the table; deactivating and reactivating an active tenant is
      one instance. */
  lemma StatusRoundTrip(t: TenantTable, id: string, status: string)
    requires id in t
    ensures UpdateStatus(UpdateStatus(t, id, status).state, id, t[id].status).state == t
    ensures t[id].status == Active ==> UpdateStatus(UpdateStatus(t, id, Inactive).state, id, Active).state == t
  {
    assert t[id := t[id].(status := status)][id := t[id]] == t;
    assert t[id := t[id].(status := Inactive)][id := t[id]] == t;
  }

  /** Deleting a tenant just created restores the table, and until then it
      is found under its key. */
  lemma RemoveUndoesCreate(t: TenantTable, dto: NewTenant, freshId: string, named: set<string>)
    requires freshId !in t
    ensures FindOne(Create(t, dto, freshId).state, freshId) == Create(t, dto, freshId).result
    ensures freshId !in named ==> Remove(Create(t, dto, freshId).state, freshId, named).state == t
    ensures freshId in named ==> Remove(Create(t, dto, freshId).state, freshId, named).result == Err(Rejected)
  {
  }

  /** DELETE /tenants/:id. `named` holds the tenant ids that some stored
      contract refers to: the contract's `tenant_id` foreign key has no
      ON DELETE rule, so the database refuses to delete such a tenant on
      flush and nothing changes. Any other stored tenant is deleted. */
  function Remove(t: TenantTable, id: string, named: set<string>): (r: Step<TenantTable, ()>)
    ensures r.result.Ok? <==> id in t && id !in named
    ensures id !in t ==> r == Step(t, Err(NotFound(TenantKind)))
    ensures id in t && id in named ==> r == Step(t, Err(Rejected))
    ensures r.result.Ok? ==> r.state.Keys == t.Keys - {id}
    ensures forall k :: k in r.state ==> k in t && r.state[k] == t[k]
  {
    match FindOne(t, id)
    case Err(e) => Step(t, Err(e))
    case Ok(_) => if id in named then Step(t, Err(Rejected)) else Step(t - {id}, Ok(()))
  }
}

=== FILE: text.dfy ===
/** String predicates the list queries are built from.

    A search term `q` becomes the SQL condition `field LIKE '%q%'`. The model
    reads that as plain substring containment: `%` and `_` typed by the user
    are not escaped by the services, and that wildcard reading is not modelled.
 */
module Text {
  import opened Wrappers

  /** JavaScript truthiness of a string: only the empty string is falsy. */
  predicate Truthy(s: string) {
    s != ""
  }

  /** An optional string argument that a service tests with `if (x)`:
      present and non-empty. */
  predicate Given(x: Option<string>) {
    x.Some? && Truthy(x.value)
  }

  /** An ASCII decimal digit. */
  predicate IsDigit(c: char) {
    '0' <= c <= '9'
  }

  predicate AllDigits(s: string) {
    forall i :: 0 <= i < |s| ==> IsDigit(s[i])
  }

  /** `sub` occurs in `s` starting at index `i`. */
  predicate OccursAt(sub: string, s: string, i: int) {
    0 <= i && i + |sub| <= |s| && s[i..i + |sub|] == sub
  }

  /** Substring containment, scanning `s` from the left. */
  predicate Contains(s: string, sub: string)
    decreases |s|
  {
    if |sub| > |s| then false
    else if s[..|sub|] == sub then true
    else |s| > 0 && Contains(s[1..], sub)
  }

  /** The left-to-right scan finds `sub` exactly when it occurs somewhere. */
  lemma {:induction false} ContainsIffOccurs(s: string, sub: string)
    ensures Contains(s, sub) <==> exists i :: OccursAt(sub, s, i)
    decreases |s|
  {
    if |sub| > |s| {
      forall i | OccursAt(sub, s, i) ensures false { }
    } else if s[..|sub|] == sub {
      assert OccursAt(sub, s, 0);
    } else {
      ContainsIffOccurs(s[1..], sub);
      if Contains(s[1..], sub) {
        var j :| OccursAt(sub, s[1..], j);
        TailSlice(s, j + 1, j + 1 + |sub|);
        assert OccursAt(sub, s, j + 1);
      } else {
        forall i | OccursAt(sub, s, i) ensures false {
          if i != 0 {
            TailSlice(s, i, i + |sub|);
            assert OccursAt(sub, s[1..], i - 1);
          }
        }
      }
    }
  }

  lemma TailSlice(s: string, a: int, b: int)
    requires 1 <= a <= b <= |s|
    ensures s[1..][a - 1..b - 1] == s[a..b]
  {
    var t := s[1..][a - 1..b - 1];
    assert |t| == b - a;
    forall k | 0 <= k < b - a ensures t[k] == s[a..b][k] {
      assert t[k] == s[1..][a - 1 + k] == s[a + k];
    }
  }

  /** The search part of a list query: with no (or an empty) search term
      every row matches; otherwise the term must occur in one of `fields`. */
  predicate SearchMatches(search: Option<string>, fields: seq<string>) {
    !Given(search) || exists i :: 0 <= i < |fields| && Contains(fields[i], search.value)
  }

  /** An optional equality filter: absent means "any value". */
  predicate EqualsIfGiven<T(==)>(filter: Option<T>, value: T) {
    filter.None? || filter.value == value
  }
}

=== FILE: transactions.dfy ===
/** The finance transactions service: income and expense entries, each
    optionally linked to a room and to a tenant. Its list endpoint pages by
    look-ahead: it asks the database for one row more than the page size and
    reports `hasMore` when that extra row came back.
 */
module Transactions {
  import opened Wrappers
  import opened Text
  import opened Tables
  import opened Paging

  datatype TransactionType = Income | Expense

  datatype Transaction = Transaction(
    id: string,
    txType: TransactionType,
    amount: int,
    category: string,
    description: Option<string>,
    date: int,
    roomId: Option<string>,
    tenantId: Option<string>)

  type TransactionTable = map<string, Transaction>

  /** The body of a create request. */
  datatype NewTransaction = NewTransaction(
    txType: TransactionType,
    amount: int,
    category: string,
    description: Option<string>,
    date: int,
    roomId: Option<string>,
    tenantId: Option<string>)

  /** The WHERE clause of the list query: a type filter only when a type
      is given. */
  predicate MatchesType(txType: Option<TransactionType>, tx: Transaction) {
    EqualsIfGiven(txType, tx.txType)
  }

  function Matching(t: TransactionTable, order: seq<string>, txType: Option<TransactionType>): seq<Transaction>
    requires IsListing(t, order)
  {
    Query(t, order, tx => MatchesType(txType, tx))
  }

  /** GET /transactions: fetch `limit + 1` rows from `(page - 1) * limit`,
      report `hasMore` when more than `limit` came back, and drop the extra
      row. */
  function FindAll(t: TransactionTable, order: seq<string>, page: Option<int>, limit: Option<int>, txType: Option<TransactionType>): (r: Listing<Transaction>)
    requires IsListing(t, order)
    requires ValidRequest(page.GetOr(DefaultPage), limit.GetOr(DefaultLimit))
    ensures r.page == page.GetOr(DefaultPage) && r.limit == limit.GetOr(DefaultLimit)
    ensures |r.data| <= r.limit
    ensures forall x :: x in r.data ==> x in t.Values && MatchesType(txType, x)
    ensures var (p, l) := (page.GetOr(DefaultPage), limit.GetOr(DefaultLimit));
      var fetched := Window(Matching(t, order, txType), Offset(p, l), l + 1);
      && (r.hasMore <==> |fetched| > l)
      && (r.hasMore ==> r.data == fetched[..l])
      && (!r.hasMore ==> r.data == fetched)
    ensures r.hasMore <==> Offset(page.GetOr(DefaultPage), limit.GetOr(DefaultLimit)) + limit.GetOr(DefaultLimit) < |Matching(t, order, txType)|
  {
    var p := page.GetOr(DefaultPage);
    var l := limit.GetOr(DefaultLimit);
    var matching := Matching(t, order, txType);
    var r := PageByLookahead(matching, p, l);
    LookaheadAgreesWithCount(matching, p, l);
    forall x | x in r.data ensures x in matching {
      var i :| 0 <= i < |r.data| && r.data[i] == x;
    }
    r
  }

  /** Without a type every transaction matches. */
  lemma {:induction false} NoTypeSelectsEverything(t: TransactionTable, order: seq<string>)
    requires IsListing(t, order)
    ensures Matching(t, order, None) == Rows(t, order)
  {
    SelectAll(Rows(t, order), tx => MatchesType(None, tx));
  }

  lemma {:induction false} SelectAll(rows: seq<Transaction>, p: Transaction -> bool)
    requires forall x :: p(x)
    ensures Select(rows, p) == rows
  {
    if rows != [] {
      SelectAll(rows[1..], p);
      assert rows == [rows[0]] + rows[1..];
    }
  }

  /** GET /transactions/:id. */
  function FindOne(t: TransactionTable, id: string): (r: Result<Transaction>)
    ensures r.Ok? <==> id in t
    ensures r.Ok? ==> r.value == t[id]
    ensures r.Err? ==> r.error == NotFound(TransactionKind)
  {
    Lookup(t, id, TransactionKind)
  }

  /** An optional link is checked only when its key is truthy; a missing or
      empty key leaves the link null. */
  predicate LinkResolves(key: Option<string>, ids: set<string>) {
    !Given(key) || key.value in ids
  }

  function Link(key: Option<string>): Option<string> {
    if Given(key) then key else None
  }

  /** POST /transactions as written. The room link is checked before the
      tenant link; then the row is flushed. The entity's `description` is a
      plain property, not declared nullable, and its column is NOT NULL, so
      a request that omits the optional description is refused by the
      database although both links resolve. */
  function Create(t: TransactionTable, roomIds: set<string>, tenantIds: set<string>, dto: NewTransaction, freshId: string): (r: Step<TransactionTable, Transaction>)
    requires freshId !in t
    ensures !LinkResolves(dto.roomId, roomIds) ==> r == Step(t, Err(NotFound(RoomKind)))
    ensures LinkResolves(dto.roomId, roomIds) && !LinkResolves(dto.tenantId, tenantIds) ==> r == Step(t, Err(NotFound(TenantKind)))
    ensures r.result.Ok? <==> LinkResolves(dto.roomId, roomIds) && LinkResolves(dto.tenantId, tenantIds) && dto.description.Some?
    ensures r.result.Err? ==> r.state == t
    ensures r.result == Err(Rejected) <==> LinkResolves(dto.roomId, roomIds) && LinkResolves(dto.tenantId, tenantIds) && dto.description.None?
    ensures r.result.Ok? ==> r.result.value.description.Some?
    ensures dto.description.Some? ==> r == CreateOptionalDescription(t, roomIds, tenantIds, dto, freshId)
  {
    if !LinkResolves(dto.roomId, roomIds) then Step(t, Err(NotFound(RoomKind)))
    else if !LinkResolves(dto.tenantId, tenantIds) then Step(t, Err(NotFound(TenantKind)))
    else if dto.description.None? then Step(t, Err(Rejected))
    else
      var x := Transaction(freshId, dto.txType, dto.amount, dto.category, dto.description, dto.date,
                           Link(dto.roomId), Link(dto.tenantId));
      Step(t[freshId := x], Ok(x))
  }

  /** POST /transactions as the request type intends: the description is
      optional, and a transaction stored without one has none. */
  function CreateOptionalDescription(t: TransactionTable, roomIds: set<string>, tenantIds: set<string>, dto: NewTransaction, freshId: string): (r: Step<TransactionTable, Transaction>)
    requires freshId !in t
    ensures !LinkResolves(dto.roomId, roomIds) ==> r == Step(t, Err(NotFound(RoomKind)))
    ensures LinkResolves(dto.roomId, roomIds) && !LinkResolves(dto.tenantId, tenantIds) ==> r == Step(t, Err(NotFound(TenantKind)))
    ensures r.result.Ok? <==> LinkResolves(dto.roomId, roomIds) && LinkResolves(dto.tenantId, tenantIds)
    ensures !Given(dto.roomId) && !Given(dto.tenantId) ==> r.result.Ok?
    ensures r.result.Ok? ==>
      var x := r.result.value;
      && r.state == t[freshId := x]
      && x.id == freshId
      && x.txType == dto.txType && x.amount == dto.amount && x.category == dto.category
      && x.description == dto.description && x.date == dto.date
      && (x.roomId.Some? <==> Given(dto.roomId))
      && (x.roomId.Some? ==> x.roomId == dto.roomId && x.roomId.value in roomIds)
      && (x.tenantId.Some? <==> Given(dto.tenantId))
      && (x.tenantId.Some? ==> x.tenantId == dto.tenantId && x.tenantId.value in tenantIds)
  {
    if !LinkResolves(dto.roomId, roomIds) then Step(t, Err(NotFound(RoomKind)))
    else if !LinkResolves(dto.tenantId, tenantIds) then Step(t, Err(NotFound(TenantKind)))
    else
      var x := Transaction(freshId, dto.txType, dto.amount, dto.category, dto.description, dto.date,
                           Link(dto.roomId), Link(dto.tenantId));
      Step(t[freshId := x], Ok(x))
  }

  /** A request with no links and no description: the intended create stores
      it, the create as written leaves the table as it was. */
  lemma UnlinkedWithoutDescriptionIsRefusedAsWritten()
    ensures exists t: TransactionTable, dto: NewTransaction, freshId: string ::
      && freshId !in t
      && !Given(dto.roomId) && !Given(dto.tenantId) && dto.description.None?
      && Create(t, {}, {}, dto, freshId) == Step(t, Err(Rejected))
      && freshId in CreateOptionalDescription(t, {}, {}, dto, freshId).state
  {
    var t: TransactionTable := map[];
    var dto := NewTransaction(Income, 100, "rent", None, 0, None, None);
    assert "x1" in CreateOptionalDescription(t, {}, {}, dto, "x1").state;
  }

  /** DELETE /transactions/:id: removes exactly that transaction. */
  function Remove(t: TransactionTable, id: string): (r: Step<TransactionTable, ()>)
    ensures r.result.Ok? <==> id in t
    ensures r.result.Err? ==> r == Step(t, Err(NotFound(TransactionKind)))
    ensures r.result.Ok? ==> r.state.Keys == t.Keys - {id}
    ensures forall k :: k in r.state ==> k in t && r.state[k] == t[k]
  {
    match FindOne(t, id)
    case Err(e) => Step(t, Err(e))
    case Ok(_) => Step(t - {id}, Ok(()))
  }

  /** Deleting a transaction just created restores the table, and until
      then it is found under its key. */
  lemma RemoveUndoesCreate(t: TransactionTable, roomIds: set<string>, tenantIds: set<string>, dto: NewTransaction, freshId: string)
    requires freshId !in t
    ensures var c := CreateOptionalDescription(t, roomIds, tenantIds, dto, freshId);
      c.result.Ok? ==> FindOne(c.state, freshId) == c.result && Remove(c.state, freshId).state == t
  {
  }
}

=== FILE: users.dfy ===
/** The users service: back-office accounts with a role and an
    active/inactive status. Passwords are stored hashed; the hash function
    (bcrypt in the service) is a parameter. An update overwrites a field
    only when the supplied value is truthy.
 */
module Users {
  import opened Wrappers
  import opened Text
  import opened Tables
  import opened Paging

  datatype Role = Admin | Manager | Staff
  datatype UserStatus = Active | Inactive

  /** The strings the status enumeration accepts. */
  function StatusName(s: UserStatus): string {
    match s
    case Active => "active"
    case Inactive => "inactive"
  }

  datatype User = User(
    id: int,
    name: string,
    email: string,
    phone: string,
    role: Role,
    status: UserStatus,
    password: Option<string>)

  type UserTable = map<int, User>

  /** The body of a create request; a missing status defaults to active. */
  datatype NewUser = NewUser(
    name: string,
    email: string,
    phone: string,
    role: Role,
    status: Option<UserStatus>,
    password: string)

  /** The body of an update request; every field is optional. */
  datatype UserChanges = UserChanges(
    name: Option<string>,
    email: Option<string>,
    phone: Option<string>,
    role: Option<Role>,
    status: Option<UserStatus>,
    password: Option<string>)

  const DeletedMessage := "User deleted successfully"

  /** The list query's WHERE clause: the search term in name, email or
      phone, and the role and status when given. */
  predicate Matches(search: Option<string>, role: Option<Role>, status: Option<UserStatus>, u: User) {
    && SearchMatches(search, [u.name, u.email, u.phone])
    && EqualsIfGiven(role, u.role)
    && EqualsIfGiven(status, u.status)
  }

  function Matching(t: UserTable, order: seq<int>, search: Option<string>, role: Option<Role>, status: Option<UserStatus>): seq<User>
    requires IsListing(t, order)
  {
    Query(t, order, u => Matches(search, role, status, u))
  }

  /** GET /api/users: page (default 1) and limit (default 10) over the
      matching users, with their count and `ceil(total / limit)` pages. */
  function FindAll(t: UserTable, order: seq<int>, page: Option<int>, limit: Option<int>,
                   search: Option<string>, role: Option<Role>, status: Option<UserStatus>): (r: Counted<User>)
    requires IsListing(t, order)
    requires ValidRequest(page.GetOr(DefaultPage), limit.GetOr(DefaultLimit))
    ensures r.page == page.GetOr(DefaultPage) && r.limit == limit.GetOr(DefaultLimit)
    ensures r.total == |Matching(t, order, search, role, status)|
    ensures |r.items| <= r.limit
    ensures forall u :: u in r.items ==> u in t.Values && Matches(search, role, status, u)
    ensures r.items == Window(Matching(t, order, search, role, status), Offset(page.GetOr(DefaultPage), limit.GetOr(DefaultLimit)), limit.GetOr(DefaultLimit))
    ensures r.totalPages * r.limit >= r.total && (r.totalPages > 0 ==> (r.totalPages - 1) * r.limit < r.total)
    ensures |r.items| > 0 <==> r.page <= r.totalPages
  {
    var matching := Matching(t, order, search, role, status);
    var r := PageWithTotals(matching, page, limit);
    forall u | u in r.items ensures u in matching {
      var i :| 0 <= i < |r.items| && r.items[i] == u;
    }
    r
  }

  /** With a non-empty search term and no other filter, a user is among
      the matches exactly when the term occurs somewhere in its name, email
      or phone. */
  lemma SearchFindsSubstrings(t: UserTable, order: seq<int>, k: int, q: string)
    requires IsListing(t, order) && k in t && q != ""
    ensures t[k] in Matching(t, order, Some(q), None, None) <==>
      exists i :: OccursAt(q, t[k].name, i) || OccursAt(q, t[k].email, i) || OccursAt(q, t[k].phone, i)
  {
    var u := t[k];
    QueryIsComplete(t, order, u' => Matches(Some(q), None, None, u'), k);
    ContainsIffOccurs(u.name, q);
    ContainsIffOccurs(u.email, q);
    ContainsIffOccurs(u.phone, q);
    var fields := [u.name, u.email, u.phone];
    assert fields[0] == u.name && fields[1] == u.email && fields[2] == u.phone;
  }

  /** GET /api/users/:id. */
  function FindOne(t: UserTable, id: int): (r: Result<User>)
    ensures r.Ok? <==> id in t
    ensures r.Ok? ==> r.value == t[id]
    ensures r.Err? ==> r.error == NotFound(UserKind)
  {
    Lookup(t, id, UserKind)
  }

  /** POST /api/users: the request is stored with its password replaced by
      its hash. */
  function Create(t: UserTable, dto: NewUser, freshId: int, hash: string -> string): (r: Step<UserTable, User>)
    requires freshId !in t
    ensures r.result.Ok?
    ensures var u := r.result.value;
      && r.state == t[freshId := u]
      && u.id == freshId
      && u.password == Some(hash(dto.password))
      && u.status == dto.status.GetOr(Active)
      && u.name == dto.name && u.email == dto.email && u.phone == dto.phone && u.role == dto.role
  {
    var u := User(freshId, dto.name, dto.email, dto.phone, dto.role, dto.status.GetOr(Active), Some(hash(dto.password)));
    Step(t[freshId := u], Ok(u))
  }

  /** The new value of a text field under a truthy-only merge. */
  function MergeText(current: string, supplied: Option<string>): string {
    if Given(supplied) then supplied.value else current
  }

  /** PUT /api/users/:id. Each of name, email, phone, role and status is
      overwritten only by a truthy value; a supplied password is stored as
      its hash. */
  function Update(t: UserTable, id: int, changes: UserChanges, hash: string -> string): (r: Step<UserTable, User>)
    ensures id !in t ==> r == Step(t, Err(NotFound(UserKind)))
    ensures id in t ==> r.result.Ok?
    ensures r.result.Ok? ==>
      var (u, u') := (t[id], r.result.value);
      && r.state == t[id := u']
      && u'.id == u.id
      && (Given(changes.name) ==> u'.name == changes.name.value)
      && (!Given(changes.name) ==> u'.name == u.name)
      && (Given(changes.email) ==> u'.email == changes.email.value)
      && (!Given(changes.email) ==> u'.email == u.email)
      && (Given(changes.phone) ==> u'.phone == changes.phone.value)
      && (!Given(changes.phone) ==> u'.phone == u.phone)
      && u'.role == changes.role.GetOr(u.role)
      && u'.status == changes.status.GetOr(u.status)
      && (Given(changes.password) ==> u'.password == Some(hash(changes.password.value)))
      && (!Given(changes.password) ==> u'.password == u.password)
  {
    match FindOne(t, id)
    case Err(e) => Step(t, Err(e))
    case Ok(u) =>
      var u' := u.(name := MergeText(u.name, changes.name),
                   email := MergeText(u.email, changes.email),
                   phone := MergeText(u.phone, changes.phone),
                   role := changes.role.GetOr(u.role),
                   status := changes.status.GetOr(u.status),
                   password := if Given(changes.password) then Some(hash(changes.password.value)) else u.password);
      Step(t[id := u'], Ok(u'))
  }

  /** An update request in which every field is absent or falsy. */
  predicate SuppliesNothing(changes: UserChanges) {
    && !Given(changes.name) && !Given(changes.email) && !Given(changes.phone)
    && changes.role.None? && changes.status.None? && !Given(changes.password)
  }

  /** An update that supplies nothing truthy changes nothing and returns
      the stored user. */
  lemma EmptyUpdateIsIdentity(t: UserTable, id: int, changes: UserChanges, hash: string -> string)
    requires id in t && SuppliesNothing(changes)
    ensures Update(t, id, changes, hash) == Step(t, Ok(t[id]))
  {
    var u := t[id];
    var u' := Update(t, id, changes, hash).result.value;
    assert u'.name == u.name && u'.email == u.email && u'.phone == u.phone;
    assert u' == u;
    assert t[id := u] == t;
  }

  /** Sending the same update twice ends as if only the second had been
      sent. Each call brings its own `hash`, standing for bcrypt's fresh salt
      per call: a repeated password is hashed again from the request, never
      from the stored hash. Without a password the repeat changes nothing. */
  lemma UpdateIsIdempotent(t: UserTable, id: int, changes: UserChanges, hash1: string -> string, hash2: string -> string)
    ensures Update(Update(t, id, changes, hash1).state, id, changes, hash2) == Update(t, id, changes, hash2)
    ensures !Given(changes.password) ==>
      Update(Update(t, id, changes, hash1).state, id, changes, hash2) == Update(t, id, changes, hash1)
  {
    if id in t {
      var u1 := Update(t, id, changes, hash1).result.value;
      var u2 := Update(t, id, changes, hash2).result.value;
      var u12 := Update(t[id := u1], id, changes, hash2).result.value;
      assert u12 == u2;
      assert t[id := u1][id := u12] == t[id := u2];
      if !Given(changes.password) {
        assert u2 == u1;
      }
    }
  }

  /** DELETE /api/users/:id. */
  function Remove(t: UserTable, id: int): (r: Step<UserTable, string>)
    ensures r.result.Ok? <==> id in t
    ensures r.result.Err? ==> r == Step(t, Err(NotFound(UserKind)))
    ensures r.result.Ok? ==> r.result.value == DeletedMessage && r.state.Keys == t.Keys - {id}
    ensures forall k :: k in r.state ==> k in t && r.state[k] == t[k]
  {
    match FindOne(t, id)
    case Err(e) => Step(t, Err(e))
    case Ok(_) => Step(t - {id}, Ok(DeletedMessage))
  }

  /** Deleting a user just created restores the table, and until then it
      is found under its id. */
  lemma RemoveUndoesCreate(t: UserTable, dto: NewUser, freshId: int, hash: string -> string)
    requires freshId !in t
    ensures FindOne(Create(t, dto, freshId, hash).state, freshId) == Create(t, dto, freshId, hash).result
    ensures Remove(Create(t, dto, freshId, hash).state, freshId).state == t
  {
  }

  /** PATCH /api/users/:id/status: only the status changes. */
  function UpdateStatus(t: UserTable, id: int, status: UserStatus): (r: Step<UserTable, User>)
    ensures id !in t ==> r == Step(t, Err(NotFound(UserKind)))
    ensures id in t ==> r.result.Ok? && r.result.value == t[id].(status := status) && r.state == t[id := r.result.value]
  {
    match FindOne(t, id)
    case Err(e) => Step(t, Err(e))
    case Ok(u) =>
      var u' := u.(status := status);
      Step(t[id := u'], Ok(u'))
  }

  /** A status change is the update that supplies only a status. */
  lemma UpdateStatusIsStatusOnlyUpdate(t: UserTable, id: int, status: UserStatus, hash: string -> string)
    ensures UpdateStatus(t, id, status) == Update(t, id, UserChanges(None, None, None, None, Some(status), None), hash)
  {
  }
}

=== FILE: users_controller.dfy ===
/** The users controller: turns the path parameter into a numeric id with
    JavaScript's unary `+`, and guards the status endpoint so that only the
    two status strings reach the service.
 */
module UsersController {
  import opened Wrappers
  import opened Text
  import Users

  const InvalidStatus := "Invalid status value"

  function DigitValue(c: char): nat
    requires IsDigit(c)
  {
    (c as int) - ('0' as int)
  }

  function DigitChar(d: nat): (c: char)
    requires d < 10
    ensures IsDigit(c) && DigitValue(c) == d
  {
    (('0' as int) + d) as char
  }

  /** The value of a string of decimal digits, most significant first. */
  function DecimalValue(s: string): nat
    requires AllDigits(s)
    decreases |s|
  {
    if s == [] then 0 else 10 * DecimalValue(s[..|s| - 1]) + DigitValue(s[|s| - 1])
  }

  /** The decimal spelling of a natural number, as the client puts it in
      the path. */
  function Decimal(n: nat): (s: string)
    ensures |s| > 0 && AllDigits(s)
    decreases n
  {
    if n < 10 then [DigitChar(n)] else Decimal(n / 10) + [DigitChar(n % 10)]
  }

  /** `+s` for a path parameter: a string of decimal digits is its value
      (the empty string is 0); any other string is `NaN`, shown as `None`. */
  function ToNumber(s: string): (r: Option<nat>)
    ensures r.Some? <==> AllDigits(s)
    ensures s == "" ==> r == Some(0)
  {
    if AllDigits(s) then Some(DecimalValue(s)) else None
  }

  /** A number written in decimal comes back as itself. */
  lemma {:induction false} ToNumberOfDecimal(n: nat)
    ensures ToNumber(Decimal(n)) == Some(n)
    decreases n
  {
    var s := Decimal(n);
    if n >= 10 {
      ToNumberOfDecimal(n / 10);
      assert s[..|s| - 1] == Decimal(n / 10);
      assert s[|s| - 1] == DigitChar(n % 10);
      assert DecimalValue(s) == 10 * (n / 10) + n % 10;
    } else {
      assert s[..|s| - 1] == [];
      assert DecimalValue(s) == DigitValue(s[0]) == n;
    }
  }

  /** Leading zeros do not change the id a path parameter denotes. */
  lemma {:induction false} LeadingZeroIgnored(s: string)
    requires AllDigits(s)
    ensures AllDigits("0" + s) && DecimalValue("0" + s) == DecimalValue(s)
    decreases |s|
  {
    var z := "0" + s;
    if s != [] {
      LeadingZeroIgnored(s[..|s| - 1]);
      assert z[..|z| - 1] == "0" + s[..|s| - 1];
    }
  }

  /** The service's lookup by a converted id: `NaN` is the key of no user. */
  function FindById(t: Users.UserTable, id: Option<nat>): (r: Result<Users.User>)
    ensures r.Ok? <==> id.Some? && id.value in t
    ensures r.Err? ==> r.error == NotFound(UserKind)
  {
    if id.Some? then Users.FindOne(t, id.value) else Err(NotFound(UserKind))
  }

  /** GET /api/users/:id. */
  function FindOne(t: Users.UserTable, idParam: string): (r: Result<Users.User>)
    ensures r.Ok? <==> AllDigits(idParam) && DecimalValue(idParam) in t
    ensures r.Ok? ==> r.value == t[DecimalValue(idParam)]
    ensures r.Err? ==> r.error == NotFound(UserKind)
  {
    FindById(t, ToNumber(idParam))
  }

  /** PUT /api/users/:id. */
  function Update(t: Users.UserTable, idParam: string, changes: Users.UserChanges, hash: string -> string): (r: Step<Users.UserTable, Users.User>)
    ensures r.result.Ok? <==> AllDigits(idParam) && DecimalValue(idParam) in t
    ensures r.result.Err? ==> r == Step(t, Err(NotFound(UserKind)))
    ensures r.result.Ok? ==> r.state.Keys == t.Keys
    ensures AllDigits(idParam) ==> r == Users.Update(t, DecimalValue(idParam), changes, hash)
    ensures r.result.Ok? ==>
      var id := DecimalValue(idParam);
      && r.state == t[id := r.result.value]
      && r.result.value.id == t[id].id
  {
    match ToNumber(idParam)
    case None => Step(t, Err(NotFound(UserKind)))
    case Some(id) => Users.Update(t, id, changes, hash)
  }

  /** DELETE /api/users/:id. */
  function Remove(t: Users.UserTable, idParam: string): (r: Step<Users.UserTable, string>)
    ensures r.result.Ok? <==> AllDigits(idParam) && DecimalValue(idParam) in t
    ensures r.result.Err? ==> r == Step(t, Err(NotFound(UserKind)))
    ensures r.result.Ok? ==> r.state.Keys == t.Keys - {DecimalValue(idParam)}
    ensures forall k :: k in r.state ==> k in t && r.state[k] == t[k]
    ensures AllDigits(idParam) ==> r == Users.Remove(t, DecimalValue(idParam))
  {
    match ToNumber(idParam)
    case None => Step(t, Err(NotFound(UserKind)))
    case Some(id) => Users.Remove(t, id)
  }

  /** The status guard: present and one of the enumeration's strings. */
  function ParseStatus(status: Option<string>): (r: Option<Users.UserStatus>)
    ensures r.Some? <==> status == Some("active") || status == Some("inactive")
    ensures r.Some? ==> Users.StatusName(r.value) == status.value
  {
    if status == Some("active") then Some(Users.Active)
    else if status == Some("inactive") then Some(Users.Inactive)
    else None
  }

  /** PATCH /api/users/:id/status. A missing or unknown status is refused
      with a BadRequest before the service is reached, so the table is
      unchanged; a valid one is forwarded with the numeric id. */
  function UpdateStatus(t: Users.UserTable, idParam: string, status: Option<string>): (r: Step<Users.UserTable, Users.User>)
    ensures ParseStatus(status).None? ==> r == Step(t, Err(BadRequest(InvalidStatus)))
    ensures ParseStatus(status).Some? ==>
      && (r.result.Ok? <==> AllDigits(idParam) && DecimalValue(idParam) in t)
      && (r.result.Err? ==> r == Step(t, Err(NotFound(UserKind))))
      && (r.result.Ok? ==>
            var id := DecimalValue(idParam);
            && Users.StatusName(r.result.value.status) == status.value
            && r.state == t[id := t[id].(status := r.result.value.status)])
  {
    match ParseStatus(status)
    case None => Step(t, Err(BadRequest(InvalidStatus)))
    case Some(s) =>
      match ToNumber(idParam)
      case None => Step(t, Err(NotFound(UserKind)))
      case Some(id) => Users.UpdateStatus(t, id, s)
  }

  /** A user reached by the decimal spelling of its id is that user. */
  lemma PathOfIdFindsUser(t: Users.UserTable, id: nat)
    requires id in t
    ensures FindOne(t, Decimal(id)) == Ok(t[id])
  {
    ToNumberOfDecimal(id);
  }
}

=== FILE: wrappers.dfy ===
/** Failure-carrying datatypes shared by every service of the back office.

    The services raise three kinds of exceptions: NestJS `NotFoundException`
    (an HTTP 404), `BadRequestException` (an HTTP 400) and a plain JavaScript
    `Error` carrying only a message (surfaced as an HTTP 500); a write can
    also be refused by the database. Each becomes one constructor of
    `Error`; an operation that can fail returns a `Result`.
 */
module Wrappers {

  datatype Option<+T> = None | Some(value: T) {
    function GetOr(default: T): T {
      match this
      case Some(v) => v
      case None => default
    }
  }

  /** The entity a failed lookup was about. */
  datatype EntityKind = RoomKind | TenantKind | ContractKind | TransactionKind | MaintenanceKind | UserKind

  datatype Error =
    | NotFound(kind: EntityKind)
    | BadRequest(message: string)
    | Failure(message: string)
      // the database refused the write: a constraint violated on flush
    | Rejected

  datatype Result<+T> = Ok(value: T) | Err(error: Error)

  /** What a service call leaves behind: the (possibly updated) table and
      the value returned or the exception raised. */
  datatype Step<S, +V> = Step(state: S, result: Result<V>)
}
